=== FILE: README.md ===
# Santa Talk — a Dafny model of the relay and the chat view model

Santa Talk lets a child chat with Santa. Two parts of it carry the logic, and this project models both:

- **The backend relay** (`backend/server.js`) has three routes.
  - `GET /api/test` answers a fixed health message.
  - `POST /api/chat` wraps the child's message in a Santa persona, asks a chat-completion service, and returns the first choice's content.
  - `POST /api/tts` rewrites the text so the speech comes out slower. It inserts pauses after the catchphrase and before `!` and `?`, and collapses whitespace after punctuation. It then asks a text-to-speech service for audio and passes the bytes back.
  - Both POST routes answer failures with a fixed JSON error envelope.
- **The iOS chat view model** (`SantaTalk/ViewModels/ChatViewModel.swift`) holds the history, the text field, the loading flag and the child's profile.
  - At start-up it loads the stored history and greets the child if the history is empty.
  - Each send appends the child's message and then Santa's reply, or a fixed apology when the service fails.
- **The message types** (`SantaTalk/Models/Message.swift`, `SantaTalk/Models/User.swift`) supply the sender enumeration with its raw strings, the message record, and the profile defaults.

Files:

| file | module | what it models |
|---|---|---|
| `options.dfy` | `Options` | `Option` and `Result` |
| `messages.dfy` | `Messages` | `MessageSender`, `Message` and its initialiser |
| `user.dfy` | `Users` | `User` and its defaulted initialiser |
| `tts_text.dfy` | `TtsText` | the four replacements at `backend/server.js:60-63` |
| `relay.dfy` | `Relay` | the three route handlers and their responses |
| `chat_view_model.dfy` | `ChatViewModels` | trimming, the prompt, loading and the `ChatViewModel` class |

The relay is pure. Each handler is a function from what the route reads to the `Response` it sends. The route reads the parsed body, the environment key and the upstream service. The service is a parameter: a function from the request the route builds to the service's answer, so each handler's contract names the request it sends.

The view model is a class. Its fields are `messages`, `inputText`, `isLoading` and `user`. Three ghost fields sit beside them:

- `loaded` is the history read at start-up.
- `saved` is a log of every `saveMessage`.
- `calls` records every call to the completion service, together with the value of `isLoading` at that call.

`Valid()` states `messages == loaded + saved`, so every append is mirrored by one save.

## Model

| member | source | states |
|---|---|---|
| `Messages.RawValue` | SantaTalk/Models/Message.swift:4-7 | the raw value is "santa" or "user", and it is "santa" exactly for `.santa` |
| `Messages.ParseSender` | SantaTalk/Models/Message.swift:4-7 | parsing succeeds exactly for "santa" and "user", and a parsed sender's raw value is the parsed string |
| `Messages.ParseRawRoundTrip` | SantaTalk/Models/Message.swift:4-7 | parsing a sender's raw value gives that sender back |
| `Messages.RawValueInjective` | SantaTalk/Models/Message.swift:4-7 | two senders have the same raw value only if they are the same sender |
| `Messages.MakeMessage` | SantaTalk/Models/Message.swift:15-20 | text and sender are stored as given; a supplied id or timestamp is stored unchanged, and an omitted one comes from the fresh stamp |
| `Messages.NewMessage` | SantaTalk/Models/Message.swift:15 | a message built with both defaults omitted carries the id and time of the stamp it was built at |
| `Users.DefaultUser` | SantaTalk/Models/User.swift:12-20 | the default profile has an empty name, age 0, parent mode off, and voice and sound effects on |
| `TtsText.IsJsSpace` | backend/server.js:63 | `\s`: the ECMAScript whitespace and line terminators; space, tab and the ASCII controls LF, VT, FF and CR belong to it, and no printable ASCII character does |
| `TtsText.Lower` | backend/server.js:60 | compares characters for the case-insensitive match: each ASCII capital becomes the matching lower-case letter (its code point plus 32) and every other character is left alone |
| `TtsText.FoldsToPattern` | backend/server.js:60 | a character folds to `h` exactly when it is `h` or `H`, to `o` exactly when it is `o` or `O`, and to a space only when it is a space; so only these match the pattern, and non-ASCII case folding never matters here |
| `TtsText.ReplaceHo` | backend/server.js:60 | step 1 scans left to right, replacing each non-overlapping occurrence in any casing, and never shortens the text; what it does is pinned by the lemmas below |
| `TtsText.ReplaceHoPrefix` | backend/server.js:60 | the first eight output characters equal the input's up to case, so step 1 never inserts a comma before index 8 |
| `TtsText.ReplaceHoKeepsMismatch` | backend/server.js:60 | if the input does not start with the catchphrase (in any casing), the output does not either |
| `TtsText.ReplaceHoNormalises` | backend/server.js:60 | after step 1, every case-insensitive occurrence of "Ho ho ho" is the literal "Ho ho ho," |
| `TtsText.ReplaceHoSkeleton` | backend/server.js:60 | after removing all commas and lower-casing all letters, the output equals the input |
| `TtsText.ReplaceHoRoundTrip` | backend/server.js:60 | removing the comma after each literal "Ho ho ho," (`Unho`) gives text as long as the input; it equals the input up to case everywhere, and exactly at every position outside a case-insensitive occurrence of the catchphrase; a position where it differs lies in an occurrence of the input that now reads exactly "Ho ho ho" |
| `TtsText.ReplaceHoRestores` | backend/server.js:60 | the same four facts, gathered in one predicate (`Restores`) so the induction over the scan can carry them |
| `TtsText.RestoresAtMatch` | backend/server.js:60 | an occurrence at the front comes back as the exact "Ho ho ho", equal up to case, and the text after it is handled independently |
| `TtsText.RestoresPastChar` | backend/server.js:60 | a character that does not start an occurrence is kept exactly |
| `TtsText.ReplaceHoIdentity` | backend/server.js:60 | text with no occurrence of the catchphrase passes through step 1 unchanged |
| `TtsText.PauseBefore` | backend/server.js:61-62 | steps 2 and 3 put ", " before every occurrence of the mark and never shorten the text; the partner lemmas below pin what else they do |
| `TtsText.PauseBeforeRoundTrip` | backend/server.js:61-62 | removing the inserted ", " before each mark gives back the input, so steps 2 and 3 change nothing else |
| `TtsText.PauseBeforePrecedes` | backend/server.js:61-62 | after steps 2 and 3, every `!` (or `?`) is immediately preceded by ", " |
| `TtsText.PauseBeforeCount` | backend/server.js:61-62 | steps 2 and 3 keep the count of every character other than ',' and ' ', including the marks |
| `TtsText.Collapse` | backend/server.js:63 | step 4 never lengthens the text, keeps it empty exactly when it was empty, and keeps its first character |
| `TtsText.DropSpaces` | backend/server.js:63 | the `\s+` part of step 4: what remains is empty or starts with a non-whitespace character |
| `TtsText.CollapseIsCollapsed` | backend/server.js:63 | after step 4, a mark followed by whitespace is followed by exactly one plain space and then a non-whitespace character or the end of the text |
| `TtsText.CollapseFixesCollapsed` | backend/server.js:63 | text that already meets that rule passes through step 4 unchanged |
| `TtsText.CollapseCopiesUnmarked` | backend/server.js:63 | text before the first mark, whitespace included, is copied exactly |
| `TtsText.CollapseLeadingSpaces` | backend/server.js:63 | a run of whitespace at the very start of the text is kept as it is |
| `TtsText.CollapseKeepsUnmarkedWhitespace` | backend/server.js:63 | a run of whitespace after a character that is neither a mark nor whitespace is kept as it is, and the text on either side is rewritten independently |
| `TtsText.CollapseReplacesRun` | backend/server.js:63 | a mark followed by a whole run of whitespace keeps the mark and gets exactly one plain space in place of the run |
| `TtsText.CollapseConcat` | backend/server.js:63 | step 4 can be applied separately to the text up to a character that is neither a mark nor whitespace and to the text after it |
| `TtsText.CollapseIdempotent` | backend/server.js:63 | applying step 4 twice gives the same result as applying it once |
| `TtsText.CollapseKeepsNonSpace` | backend/server.js:63 | step 4 keeps every character that is not whitespace, in order |
| `TtsText.Preprocess` | backend/server.js:60-63 | the four replacements run in source order, and the result satisfies the step-4 rule |
| `TtsText.PreprocessKeepsMarks` | backend/server.js:60-63 | the whole pipeline keeps the number of `!` and the number of `?` characters |
| `TtsText.PreprocessExampleShort` | backend/server.js:60-63 | "Ho ho ho!" becomes exactly "Ho ho ho,, !" |
| `TtsText.PreprocessExampleLong` | backend/server.js:60-63 | "Ho ho ho! Are you ready?" becomes exactly "Ho ho ho,, ! Are you ready, ?" |
| `Relay.LastValue` | backend/server.js:27 | reading a key from a parsed JSON object is defined exactly when the key is present, and then gives the value of its last occurrence |
| `Relay.Property` | backend/server.js:56 | for the keys the routes read (`message`, `text`), which are not inherited from the object or array prototypes, a destructured property is defined only when the body is an object that has the key |
| `Relay.JsonResponse` | backend/server.js:43 | `res.status(...).json(...)` answers the given status with the JSON content type and the given object as the body |
| `Relay.OptionalMember` | backend/server.js:43 | `JSON.stringify` leaves out a member whose value is `undefined`, and keeps every other member |
| `Relay.HandleTest` | backend/server.js:20-22 | the health route answers 200 JSON with `message` "Server is running!" |
| `Relay.ChatRequestFor` | backend/server.js:29-40 | the completion request holds exactly two messages: the fixed system prompt first, then the child's message unchanged; the model is gpt-3.5-turbo, max_tokens 100 and temperature 0.7 |
| `Relay.ChatRequest` | backend/server.js:27-36 | the user message is the body's `message` as read, with no trimming or validation, so an empty or missing one is sent as is |
| `Relay.UserContent` | backend/server.js:36 | the child's words as the service receives them: the last message with role "user", defined exactly when there is one |
| `Relay.ChatRequestForwards` | backend/server.js:36 | the service receives the child's message unchanged, and different messages give different requests |
| `Relay.ExtractReply` | backend/server.js:42 | `choices[0].message.content` succeeds exactly when `choices` is a non-empty array whose first element is a choice (not `null`) with a message; otherwise it yields V8's TypeError for the first read from undefined or null: of '0' when `choices` is absent or null, of 'message' when the first element is absent or null, of 'content' when its message is absent or null |
| `Relay.ChatErrorResponse` | backend/server.js:46-49 | the chat error envelope is 500 with `error` "Failed to get response" and `details` set to the exception message |
| `Relay.HandleChat` | backend/server.js:25-51 | the route asks the completion service with the request built from the body; it answers JSON, 200 exactly when that answer is a completion whose content can be read (then `message` is that content), and 500 otherwise |
| `Relay.ChatDependsOnRequest` | backend/server.js:27-43 | the answer depends only on the body's `message` and on the service's answer to the request built from it |
| `Relay.ChatSuccess` | backend/server.js:42-43 | on success the client reads the first choice's content under `message`; an undefined content leaves the key out |
| `Relay.ChatFailureEnvelope` | backend/server.js:44-49 | every failure gives 500 with the fixed error and the exception's message, whether the service threw or the reply lacked choices |
| `Relay.ChatMissingChoices` | backend/server.js:42 | a reply without `choices` fails with "Cannot read properties of undefined (reading '0')" |
| `Relay.ChatNullChoice` | backend/server.js:42-49 | a reply whose first choice is `null` answers 500 with "Cannot read properties of null (reading 'message')" as details |
| `Relay.ReplaceFailure` | backend/server.js:60 | `text.replace` throws exactly when `text` is not a string: V8's undefined/null read messages, or "text.replace is not a function" |
| `Relay.KeyMissing` | backend/server.js:65 | `!key`: a key counts as set exactly when it is present and non-empty |
| `Relay.PlanSpeech` | backend/server.js:56-93 | a non-string text fails first; then an unset or empty key fails with the key message; otherwise the request carries the preprocessed text, the key, the fixed voice URL, `audio/mpeg`, `eleven_monolingual_v1` and the four voice settings |
| `Relay.ResponseSummary` | backend/server.js:111-115 | the `response` member is an object exactly when the error carried an upstream response; it then holds status, statusText, and the data as text or null |
| `Relay.TtsErrorResponse` | backend/server.js:108-116 | the speech error envelope is 500 JSON with `error` "Failed to generate speech", `details` and `response` |
| `Relay.HandleTts` | backend/server.js:54-118 | the speech service is asked with the planned request, and only when planning succeeds; the route answers 200 exactly when it then returns audio, passing the bytes back unchanged as `audio/mpeg`; every other case is a 500 JSON answer |
| `Relay.TtsEarlyFailure` | backend/server.js:60-68 | a failure before the service call gives the same answer whatever the service would do, since no request is sent: 500, the fixed error, the exception message and a null `response` |
| `Relay.TtsMissingText` | backend/server.js:56-60 | a body without `text` fails on `replace`, before the key is checked |
| `Relay.TtsMissingKey` | backend/server.js:65-68 | a string text with an unset or empty key fails with the key message and a null `response` |
| `Relay.TtsUpstreamFailure` | backend/server.js:99-116 | a service failure gives 500 with its message; `response` is an object exactly when the error carried an upstream response |
| `Relay.TtsSpeaksPaced` | backend/server.js:60-83 | with a key set, the body `{"text": "Ho ho ho!"}` makes the route send "Ho ho ho,, !" to the synthesizer |
| `ChatViewModels.IsSwiftWhitespace` | SantaTalk/ViewModels/ChatViewModel.swift:43 | membership in `.whitespacesAndNewlines`: space, tab and the ASCII controls LF, VT, FF and CR belong to it, and no printable ASCII character does |
| `ChatViewModels.Trimmed` | SantaTalk/ViewModels/ChatViewModel.swift:43 | the trimmed text is no longer than the input, and it neither starts nor ends with whitespace |
| `ChatViewModels.TrimStartCuts` | SantaTalk/ViewModels/ChatViewModel.swift:43 | trimming the start removes exactly the leading run of whitespace and newlines |
| `ChatViewModels.TrimEndCuts` | SantaTalk/ViewModels/ChatViewModel.swift:43 | trimming the end removes exactly the trailing run |
| `ChatViewModels.TrimmedEmptyIffBlank` | SantaTalk/ViewModels/ChatViewModel.swift:43 | the trimmed input is empty exactly when every character is whitespace or a newline |
| `ChatViewModels.TrimmedIsInfix` | SantaTalk/ViewModels/ChatViewModel.swift:43 | the trimmed text is a contiguous part of the input; everything before it and everything after it is whitespace |
| `ChatViewModels.Digits` | SantaTalk/ViewModels/ChatViewModel.swift:60 | an age renders as one or more decimal digits with no leading zero |
| `ChatViewModels.DecimalString` | SantaTalk/ViewModels/ChatViewModel.swift:60 | the rendering of an `Int` is non-empty and starts with a minus sign exactly when the number is negative |
| `ChatViewModels.DigitsRoundTrip` | SantaTalk/ViewModels/ChatViewModel.swift:60 | reading the rendered digits back gives the number |
| `ChatViewModels.DecimalRoundTrip` | SantaTalk/ViewModels/ChatViewModel.swift:60 | the rendered age, with its minus sign if any, denotes the age |
| `ChatViewModels.Prompt` | SantaTalk/ViewModels/ChatViewModel.swift:58-61 | the prompt is the child's text when the name is empty; otherwise it starts with the name, has the rendered age in the middle, and ends with "Question: " and the text |
| `ChatViewModels.DefaultPromptIsText` | SantaTalk/Models/User.swift:12-13 | under the default profile the prompt is the child's text as typed |
| `ChatViewModels.ReplyText` | SantaTalk/ViewModels/ChatViewModel.swift:63-77 | Santa's text is the service reply, or the fixed apology when the call fails |
| `ChatViewModels.Exchange` | SantaTalk/ViewModels/ChatViewModel.swift:45-77 | an accepted send appends two messages: first the child's untrimmed text from `.user`, then a `.santa` message with the reply text |
| `ChatViewModels.FailedExchange` | SantaTalk/ViewModels/ChatViewModel.swift:71-77 | when the service fails, Santa's message is the fixed apology, whatever was asked |
| `ChatViewModels.RecordToMessage` | SantaTalk/ViewModels/ChatViewModel.swift:104-113 | a record becomes a message exactly when id, text, sender and timestamp are present and the sender is "santa" or "user"; the fields are carried over |
| `ChatViewModels.ToRecord` | SantaTalk/ViewModels/ChatViewModel.swift:119-124 | a saved record has all four attributes set |
| `ChatViewModels.RecordRoundTrip` | SantaTalk/ViewModels/ChatViewModel.swift:119-124 | a saved message loads back as itself |
| `ChatViewModels.LoadRecords` | SantaTalk/ViewModels/ChatViewModel.swift:104-113 | the filter-map never yields more messages than records |
| `ChatViewModels.LoadRecordsConcat` | SantaTalk/ViewModels/ChatViewModel.swift:104-113 | loading goes record by record: loading a concatenation concatenates the loads, so fetch order is kept |
| `ChatViewModels.LoadedFromRecords` | SantaTalk/ViewModels/ChatViewModel.swift:104-113 | every loaded message is the conversion of some fetched record |
| `ChatViewModels.LoadCompleteRecords` | SantaTalk/ViewModels/ChatViewModel.swift:104-113 | when every record is complete, nothing is dropped and message i is the conversion of record i |
| `ChatViewModels.SaveLoadRoundTrip` | SantaTalk/ViewModels/ChatViewModel.swift:119-124 | loading the records of saved messages gives back those messages, in order |
| `ChatViewModels.LoadKeepsOrder` | SantaTalk/ViewModels/ChatViewModel.swift:99-113 | records fetched in ascending timestamp order load as messages in ascending timestamp order |
| `ChatViewModels.LoadedMessages` | SantaTalk/ViewModels/ChatViewModel.swift:102-116 | a failed fetch leaves the (initially empty) history empty |
| `ChatViewModels.InitialMessages` | SantaTalk/ViewModels/ChatViewModel.swift:24-34 | after start-up the history is the loaded one if that is non-empty; otherwise it is exactly one `.santa` greeting |
| `ChatViewModels.ChatViewModel.constructor` | SantaTalk/ViewModels/ChatViewModel.swift:17-40 | start-up loads the history, then greets and saves the greeting if the history is empty; the field is empty, nothing is loading, the profile is the default, and `Valid()` holds |
| `ChatViewModels.ChatViewModel.LoadMessages` | SantaTalk/ViewModels/ChatViewModel.swift:98-117 | the history becomes the converted fetch, or stays as it was when the fetch fails |
| `ChatViewModels.ChatViewModel.SaveMessage` | SantaTalk/ViewModels/ChatViewModel.swift:119-131 | each save appends the message to the save log |
| `ChatViewModels.ChatViewModel.AppendAndSave` | SantaTalk/ViewModels/ChatViewModel.swift:46-47 | an append is followed by its save, so `Valid()` is kept |
| `ChatViewModels.ChatViewModel.SendMessage` | SantaTalk/ViewModels/ChatViewModel.swift:42-81 | blank input changes nothing; otherwise the history gains exactly the exchange for the prompt's outcome, the field is cleared, the service is called once with the profile's prompt while `isLoading` is true, `isLoading` is false afterwards, and `Valid()` is kept |
| `ChatViewModels.ChatViewModel.StopVoiceInput` | SantaTalk/ViewModels/ChatViewModel.swift:91-96 | recognised speech replaces the typed text unless nothing was recognised |

## Left out

- Express wiring, CORS, `dotenv`, the port and all console logging (`backend/server.js:1-17`, `120-123`). They are framework plumbing and output.
- The environment is a parameter `Option<string>`. An unset variable is `None`, and the empty string counts as missing because JavaScript treats it as falsy.
- The network calls to the completion and speech services, and the OpenAI and ElevenLabs clients. The routes build their requests, and the services are functions from request to answer.
- `SantaTalk/Services/OpenAIService.swift` is not part of this model. The view model's service is a function from prompt to outcome.
- Body parsing is outside the handlers. `express.json()` is strict: it refuses malformed JSON, and any JSON value that is not an object or an array, before the routes run. A request without a JSON body reaches the routes as the empty object, as in Express 4. The handlers therefore require an object or array body (`Relay.ParsedBody`).
- Properties inherited from the object and array prototypes are not modelled. The routes only read `message` and `text`, which are not among them.
- JSON numbers are integers here. The voice settings and the temperature are exact rationals (`real`).
- `Relay.ResponseSummary`: the upstream `data` is given already decoded to text. The UTF-8 decoding that `toString()` performs is not modelled.
- `Relay.HandleChat` and `Relay.HandleTts`: an exception always carries a string message. A thrown value without `message`, which would drop `details`, is not modelled.
- Characters are Unicode scalar values. JavaScript strings are UTF-16, but every pattern in the rewriting matches only characters in the Basic Multilingual Plane, so this does not change the results.
- `async`/`await`, `@MainActor`, and a second send that starts while one is waiting. The model is sequential.
- CoreData is reduced to values. The fetch is a value (`Fetched(records)` or `FetchFailed`), and its timestamp sort is assumed by `LoadKeepsOrder`.
- `ChatViewModels.ChatViewModel.SaveMessage`: records the message in a ghost log only. The store write and its ignored save error are not modelled.
- Speech output and sound effects are not modelled: speaking the greeting and replies, and the bell gated by `voiceEnabled` and `soundEffectsEnabled`.
- `startVoiceInput` is not modelled. It only starts the speech service and prints an error.
- `UUID()` and `Date()` become `Stamp` parameters. A timestamp is an integer count of ticks, not a floating-point date.
- `ChatViewModels.DecimalString`: `age` is an unbounded integer rather than a 64-bit `Int`. The rendering is the same for every value a 64-bit `Int` can hold.
- The UI, animation, sound-manager, static-server and app-bootstrap files are not modelled, and neither is profile editing in the settings screen.

=== FILE: chat_view_model.dfy ===
/**
 * The chat screen's view model: the message history, the text field, the
 * loading flag and the child's profile, with the operations that seed the
 * history at start-up and run one question-and-answer exchange.
 *
 * The completion service, the persistent store and the clock are outside the
 * model: the service is a function from prompt to outcome, the store's fetch
 * is a value, saving is a ghost log, and the ids and times of new messages
 * are stamps passed in.
 */
module ChatViewModels {
  import opened Options
  import opened Messages
  import Users

  // ---------------------------------------------------------------------------
  // Trimming the input
  // ---------------------------------------------------------------------------

  /**
   * Membership in `CharacterSet.whitespacesAndNewlines`: the Unicode separators
   * (general category Z), the controls U+0009 to U+000D, and U+0085.
   */
  function IsSwiftWhitespace(c: char): (b: bool)
    ensures c == ' ' || '\t' <= c <= '\r' ==> b
    ensures '!' <= c <= '~' ==> !b
  {
    var n := c as int;
    (0x09 <= n <= 0x0D) || n == 0x20 || n == 0x85 || n == 0xA0 || n == 0x1680
    || (0x2000 <= n <= 0x200A) || n == 0x2028 || n == 0x2029
    || n == 0x202F || n == 0x205F || n == 0x3000
  }

  /** The text with its leading whitespace removed. */
  function TrimStart(s: string): (r: string)
    ensures |r| <= |s|
  {
    if s != [] && IsSwiftWhitespace(s[0]) then TrimStart(s[1..]) else s
  }

  /** Trimming the start removes exactly the leading run of whitespace. */
  lemma {:induction false} TrimStartCuts(s: string)
    ensures TrimStart(s) == s[|s| - |TrimStart(s)|..]
    ensures TrimStart(s) == [] || !IsSwiftWhitespace(TrimStart(s)[0])
    ensures forall i :: 0 <= i < |s| - |TrimStart(s)| ==> IsSwiftWhitespace(s[i])
  {
    if s != [] && IsSwiftWhitespace(s[0]) {
      TrimStartCuts(s[1..]);
      forall i | 1 <= i < |s| - |TrimStart(s)| ensures IsSwiftWhitespace(s[i]) {
        assert s[i] == s[1..][i - 1];
      }
    }
  }

  /** The text with its trailing whitespace removed. */
  function TrimEnd(s: string): (r: string)
    ensures |r| <= |s|
  {
    if s != [] && IsSwiftWhitespace(s[|s| - 1]) then TrimEnd(s[..|s| - 1]) else s
  }

  /** Trimming the end removes exactly the trailing run of whitespace. */
  lemma {:induction false} TrimEndCuts(s: string)
    ensures TrimEnd(s) == s[..|TrimEnd(s)|]
    ensures TrimEnd(s) == [] || !IsSwiftWhitespace(TrimEnd(s)[|TrimEnd(s)| - 1])
    ensures forall i :: |TrimEnd(s)| <= i < |s| ==> IsSwiftWhitespace(s[i])
  {
    if s != [] && IsSwiftWhitespace(s[|s| - 1]) {
      TrimEndCuts(s[..|s| - 1]);
      forall i | |TrimEnd(s)| <= i < |s| - 1 ensures IsSwiftWhitespace(s[i]) {
        assert s[i] == s[..|s| - 1][i];
      }
    }
  }

  /** `trimmingCharacters(in: .whitespacesAndNewlines)`. */
  function Trimmed(s: string): (r: string)
    ensures |r| <= |s|
    ensures r != [] ==> !IsSwiftWhitespace(r[0]) && !IsSwiftWhitespace(r[|r| - 1])
  {
    var t := TrimStart(s);
    TrimStartCuts(s);
    TrimEndCuts(t);
    var r := TrimEnd(t);
    assert r != [] ==> r[0] == t[0];
    r
  }

  /** The trimmed text is empty exactly when every character is whitespace. */
  lemma TrimmedEmptyIffBlank(s: string)
    ensures Trimmed(s) == [] <==> forall i :: 0 <= i < |s| ==> IsSwiftWhitespace(s[i])
  {
    var t := TrimStart(s);
    TrimStartCuts(s);
    TrimEndCuts(t);
    if Trimmed(s) == [] {
      assert t == [];
    } else {
      var r := Trimmed(s);
      assert !IsSwiftWhitespace(r[0]) by {
        if t != [] {
          assert r[0] == t[0];
        }
      }
      assert s[|s| - |t|] == r[0];
    }
  }

  /** Trimming cuts a whitespace prefix and a whitespace suffix and keeps what lies between. */
  lemma TrimmedIsInfix(s: string)
    ensures var k := |s| - |TrimStart(s)|;
            k + |Trimmed(s)| <= |s| && Trimmed(s) == s[k..k + |Trimmed(s)|]
    ensures var k := |s| - |TrimStart(s)|;
            forall i :: 0 <= i < k ==> IsSwiftWhitespace(s[i])
    ensures var k := |s| - |TrimStart(s)|;
            forall i :: k + |Trimmed(s)| <= i < |s| ==> IsSwiftWhitespace(s[i])
  {
    var t := TrimStart(s);
    TrimStartCuts(s);
    TrimEndCuts(t);
    var k := |s| - |t|;
    var r := TrimEnd(t);
    assert Trimmed(s) == r;
    assert r == t[..|r|];
    assert t[..|r|] == s[k..k + |r|];
    forall i | k + |r| <= i < |s| ensures IsSwiftWhitespace(s[i]) {
      assert s[i] == t[i - k];
    }
  }

  // ---------------------------------------------------------------------------
  // The personalised prompt
  // ---------------------------------------------------------------------------

  /** A decimal digit. */
  function DigitChar(d: nat): (c: char)
    requires d < 10
    ensures '0' <= c <= '9' && c as int - '0' as int == d
  {
    ('0' as int + d) as char
  }

  /** The decimal digits of a natural number, without leading zeros. */
  function Digits(n: nat): (s: string)
    ensures |s| >= 1
    ensures forall i :: 0 <= i < |s| ==> '0' <= s[i] <= '9'
    ensures s[0] == '0' ==> n == 0
  {
    if n < 10 then [DigitChar(n)] else Digits(n / 10) + [DigitChar(n % 10)]
  }

  /** The number a string of decimal digits spells. */
  function DigitsValue(s: string): nat
    requires forall i :: 0 <= i < |s| ==> '0' <= s[i] <= '9'
  {
    if s == [] then 0 else 10 * DigitsValue(s[..|s| - 1]) + (s[|s| - 1] as int - '0' as int)
  }

  /** Reading the digits back gives the number. */
  lemma {:induction false} DigitsRoundTrip(n: nat)
    ensures DigitsValue(Digits(n)) == n
  {
    if n >= 10 {
      var s := Digits(n);
      DigitsRoundTrip(n / 10);
      assert s[..|s| - 1] == Digits(n / 10);
    }
  }

  /** How string interpolation renders an `Int`: a minus sign, then the digits. */
  function DecimalString(n: int): (s: string)
    ensures |s| >= 1
    ensures s[0] == '-' <==> n < 0
  {
    if n < 0 then "-" + Digits(-n) else Digits(n)
  }

  /** The integer a rendering denotes. */
  function DecimalValue(s: string): int
    requires |s| >= 1
    requires forall i :: 0 <= i < |s| ==> '0' <= s[i] <= '9' || (i == 0 && s[i] == '-')
  {
    if s[0] == '-' then -(DigitsValue(s[1..]) as int) else DigitsValue(s)
  }

  /** The rendering of an age denotes that age, so the prompt carries it faithfully. */
  lemma DecimalRoundTrip(n: int)
    ensures DecimalValue(DecimalString(n)) == n
  {
    if n < 0 {
      DigitsRoundTrip(-n);
      assert DecimalString(n)[1..] == Digits(-n);
    } else {
      DigitsRoundTrip(n);
    }
  }

  const NamePart := "The child's name is "
  const AgePart := " and they are "
  const QuestionPart := " years old. Personalize your response accordingly. Question: "

  /**
   * What is sent to the completion service: the bare text for a child with no
   * name, otherwise a template carrying the name, the age and the text.
   */
  function Prompt(user: Users.User, text: string): (p: string)
    ensures user.name == [] ==> p == text
    ensures user.name != [] ==>
              var head := NamePart + user.name + AgePart;
              var age := DecimalString(user.age);
              |p| == |head| + |age| + |QuestionPart| + |text| &&
              p[..|head|] == head &&
              p[|head|..|head| + |age|] == age &&
              p[|p| - |text| - |QuestionPart|..] == QuestionPart + text
  {
    if user.name == [] then text
    else
      var head := NamePart + user.name + AgePart;
      var age := DecimalString(user.age);
      ConcatParts(head, age, QuestionPart, text);
      head + age + QuestionPart + text
  }

  /** Where each part of a four-part concatenation lies. */
  lemma ConcatParts(a: string, b: string, c: string, d: string)
    ensures var s := a + b + c + d;
            |s| == |a| + |b| + |c| + |d| &&
            s[..|a|] == a && s[|a|..|a| + |b|] == b && s[|s| - |d| - |c|..] == c + d
  {
    var s := a + b + c + d;
    assert s == a + (b + (c + d));
    assert s[|a|..] == b + (c + d);
    assert s[|s| - |d| - |c|..] == (c + d);
  }

  /** A fresh profile has no name, so its prompts are the child's text as typed. */
  lemma DefaultPromptIsText(id: Uuid, text: string)
    ensures Prompt(Users.DefaultUser(id), text) == text
  {
  }

  // ---------------------------------------------------------------------------
  // One exchange
  // ---------------------------------------------------------------------------

  /** What the completion service yields for a prompt. */
  datatype ServiceOutcome = Success(reply: string) | Failure

  const Greeting := "Ho Ho Ho! Merry Christmas! What's your name?"

  const FallbackReply := "Ho ho ho! Santa's magic phone seems to be having trouble. Let's try again!"

  /** The text of the Santa message that answers an outcome. */
  function ReplyText(outcome: ServiceOutcome): (t: string)
    ensures outcome.Success? ==> t == outcome.reply
    ensures outcome.Failure? ==> t == FallbackReply
  {
    match outcome
    case Success(reply) => reply
    case Failure => FallbackReply
  }

  /**
   * The two messages an accepted send appends: the child's text as typed,
   * then Santa's answer.
   */
  function Exchange(text: string, outcome: ServiceOutcome, userStamp: Stamp, replyStamp: Stamp): (ms: seq<Message>)
    ensures |ms| == 2
    ensures ms[0] == Message(userStamp.id, text, User, userStamp.time)
    ensures ms[1].sender == Santa && ms[1].text == ReplyText(outcome)
    ensures ms[1].id == replyStamp.id && ms[1].timestamp == replyStamp.time
  {
    [NewMessage(text, User, userStamp), NewMessage(ReplyText(outcome), Santa, replyStamp)]
  }

  /** Santa answers a failed call with the fixed apology, whatever the child asked. */
  lemma FailedExchange(text: string, other: string, userStamp: Stamp, replyStamp: Stamp)
    ensures Exchange(text, Failure, userStamp, replyStamp)[1] == Exchange(other, Failure, userStamp, replyStamp)[1]
    ensures Exchange(text, Failure, userStamp, replyStamp)[1].text == FallbackReply
  {
  }

  // ---------------------------------------------------------------------------
  // Loading the stored history
  // ---------------------------------------------------------------------------

  /** A stored message as the persistent store returns it: every attribute optional. */
  datatype MessageRecord = MessageRecord(id: Option<Uuid>, text: Option<string>, sender: Option<string>,
                                         timestamp: Option<Timestamp>)

  /** The result of the store's fetch. */
  datatype FetchOutcome = Fetched(records: seq<MessageRecord>) | FetchFailed

  /** The message a record stands for, if it is complete and its sender is known. */
  function RecordToMessage(r: MessageRecord): (m: Option<Message>)
    ensures m.Some? <==> r.id.Some? && r.text.Some? && r.sender.Some? && r.timestamp.Some? &&
                         (r.sender.value == "santa" || r.sender.value == "user")
    ensures m.Some? ==> m.value.id == r.id.value && m.value.text == r.text.value &&
                        RawValue(m.value.sender) == r.sender.value && m.value.timestamp == r.timestamp.value
  {
    if r.id.Some? && r.text.Some? && r.sender.Some? && ParseSender(r.sender.value).Some? && r.timestamp.Some? then
      Some(Message(r.id.value, r.text.value, ParseSender(r.sender.value).value, r.timestamp.value))
    else None
  }

  /** The record `saveMessage` writes for a message. */
  function ToRecord(m: Message): (r: MessageRecord)
    ensures r.id.Some? && r.text.Some? && r.sender.Some? && r.timestamp.Some?
  {
    MessageRecord(Some(m.id), Some(m.text), Some(RawValue(m.sender)), Some(m.timestamp))
  }

  /** A saved message loads back as itself. */
  lemma RecordRoundTrip(m: Message)
    ensures RecordToMessage(ToRecord(m)) == Some(m)
  {
    ParseRawRoundTrip(m.sender);
  }

  /** The `compactMap` over the fetched records: incomplete records are dropped. */
  function LoadRecords(records: seq<MessageRecord>): (ms: seq<Message>)
    ensures |ms| <= |records|
  {
    if records == [] then []
    else
      var rest := LoadRecords(records[1..]);
      match RecordToMessage(records[0])
      case Some(m) => [m] + rest
      case None => rest
  }

  /** Loading is record by record, so the order of the records is kept. */
  lemma {:induction false} LoadRecordsConcat(a: seq<MessageRecord>, b: seq<MessageRecord>)
    ensures LoadRecords(a + b) == LoadRecords(a) + LoadRecords(b)
  {
    if a == [] {
      assert a + b == b;
    } else {
      assert (a + b)[0] == a[0];
      assert (a + b)[1..] == a[1..] + b;
      LoadRecordsConcat(a[1..], b);
    }
  }

  /** Every loaded message comes from a fetched record. */
  lemma {:induction false} LoadedFromRecords(records: seq<MessageRecord>, k: nat)
    requires k < |LoadRecords(records)|
    ensures exists i :: 0 <= i < |records| && RecordToMessage(records[i]) == Some(LoadRecords(records)[k])
  {
    var rest := LoadRecords(records[1..]);
    if RecordToMessage(records[0]).Some? && k == 0 {
      assert RecordToMessage(records[0]) == Some(LoadRecords(records)[k]);
    } else {
      var j := if RecordToMessage(records[0]).Some? then k - 1 else k;
      assert LoadRecords(records)[k] == rest[j];
      LoadedFromRecords(records[1..], j);
      var i :| 0 <= i < |records[1..]| && RecordToMessage(records[1..][i]) == Some(rest[j]);
      assert records[1..][i] == records[i + 1];
    }
  }

  /** When every record is complete, nothing is dropped. */
  lemma {:induction false} LoadCompleteRecords(records: seq<MessageRecord>)
    requires forall i :: 0 <= i < |records| ==> RecordToMessage(records[i]).Some?
    ensures |LoadRecords(records)| == |records|
    ensures forall i :: 0 <= i < |records| ==> Some(LoadRecords(records)[i]) == RecordToMessage(records[i])
  {
    if records != [] {
      LoadCompleteRecords(records[1..]);
      assert forall i :: 1 <= i < |records| ==> records[1..][i - 1] == records[i];
    }
  }

  /** Saved messages load back as they were saved. */
  lemma {:induction false} SaveLoadRoundTrip(ms: seq<Message>)
    ensures LoadRecords(seq(|ms|, i requires 0 <= i < |ms| => ToRecord(ms[i]))) == ms
  {
    if ms != [] {
      var rs := seq(|ms|, i requires 0 <= i < |ms| => ToRecord(ms[i]));
      RecordRoundTrip(ms[0]);
      SaveLoadRoundTrip(ms[1..]);
      assert rs[1..] == seq(|ms[1..]|, i requires 0 <= i < |ms[1..]| => ToRecord(ms[1..][i]));
    }
  }

  /** Timestamps that never decrease along the sequence. */
  predicate Chronological(ms: seq<Message>)
  {
    forall i, j :: 0 <= i < j < |ms| ==> ms[i].timestamp <= ms[j].timestamp
  }

  /** Records in the fetch's ascending timestamp order. */
  predicate RecordsChronological(records: seq<MessageRecord>)
  {
    forall i, j :: 0 <= i < j < |records| && records[i].timestamp.Some? && records[j].timestamp.Some? ==>
      records[i].timestamp.value <= records[j].timestamp.value
  }

  /** Loading keeps the fetch's ascending timestamp order. */
  lemma {:induction false} LoadKeepsOrder(records: seq<MessageRecord>)
    requires RecordsChronological(records)
    ensures Chronological(LoadRecords(records))
  {
    if records != [] {
      var tail := records[1..];
      assert RecordsChronological(tail) by {
        forall i, j | 0 <= i < j < |tail| && tail[i].timestamp.Some? && tail[j].timestamp.Some?
          ensures tail[i].timestamp.value <= tail[j].timestamp.value
        {
          assert tail[i] == records[i + 1] && tail[j] == records[j + 1];
        }
      }
      LoadKeepsOrder(tail);
      var rest := LoadRecords(tail);
      if RecordToMessage(records[0]).Some? {
        var m := RecordToMessage(records[0]).value;
        forall k | 0 <= k < |rest| ensures m.timestamp <= rest[k].timestamp {
          LoadedFromRecords(tail, k);
          var i :| 0 <= i < |tail| && RecordToMessage(tail[i]) == Some(rest[k]);
          assert tail[i] == records[i + 1];
        }
        var ms := LoadRecords(records);
        assert ms == [m] + rest;
        forall i, j | 0 <= i < j < |ms| ensures ms[i].timestamp <= ms[j].timestamp {
          if i > 0 {
            assert ms[i] == rest[i - 1] && ms[j] == rest[j - 1];
          } else {
            assert ms[j] == rest[j - 1];
          }
        }
      }
    }
  }

  /** The history after start-up: the fetched messages, or none if the fetch failed. */
  function LoadedMessages(fetch: FetchOutcome): (ms: seq<Message>)
    ensures fetch.FetchFailed? ==> ms == []
  {
    if fetch.Fetched? then LoadRecords(fetch.records) else []
  }

  /** The history `init` leaves: the loaded messages, or else a lone greeting from Santa. */
  function InitialMessages(fetch: FetchOutcome, greetingStamp: Stamp): (ms: seq<Message>)
    ensures LoadedMessages(fetch) != [] ==> ms == LoadedMessages(fetch)
    ensures LoadedMessages(fetch) == [] ==> |ms| == 1 && ms[0].sender == Santa && ms[0].text == Greeting
    ensures ms != []
  {
    var loaded := LoadedMessages(fetch);
    if loaded == [] then [NewMessage(Greeting, Santa, greetingStamp)] else loaded
  }

  // ---------------------------------------------------------------------------
  // The view model
  // ---------------------------------------------------------------------------

  /** A call to the completion service, with the loading flag as it was at the call. */
  datatype ServiceCall = ServiceCall(prompt: string, loadingAtCall: bool)

  class ChatViewModel {
    var messages: seq<Message>
    var inputText: string
    var isLoading: bool
    var user: Users.User

    /** The history as loaded from the store, and every message saved since. */
    ghost var loaded: seq<Message>
    ghost var saved: seq<Message>

    /** Every call made to the completion service. */
    ghost var calls: seq<ServiceCall>

    /** Each message after the loaded history was saved, in order. */
    ghost predicate Valid()
      reads this
    {
      messages == loaded + saved
    }

    /**
     * Load the history, then greet the child (and save the greeting) when
     * there is none.
     */
    constructor (fetch: FetchOutcome, userId: Uuid, greetingStamp: Stamp)
      ensures Valid()
      ensures messages == InitialMessages(fetch, greetingStamp)
      ensures loaded == LoadedMessages(fetch)
      ensures inputText == [] && !isLoading && user == Users.DefaultUser(userId) && calls == []
    {
      messages := [];
      inputText := "";
      isLoading := false;
      user := Users.DefaultUser(userId);
      loaded := [];
      saved := [];
      calls := [];
      new;
      LoadMessages(fetch);
      if messages == [] {
        var greeting := NewMessage(Greeting, Santa, greetingStamp);
        messages := messages + [greeting];
        SaveMessage(greeting);
      }
    }

    /**
     * Replace the history by the fetched messages; a failed fetch leaves it
     * as it was.
     */
    method LoadMessages(fetch: FetchOutcome)
      modifies this`messages, this`loaded, this`saved
      ensures messages == (if fetch.Fetched? then LoadRecords(fetch.records) else old(messages))
      ensures loaded == messages && saved == [] && Valid()
    {
      match fetch {
        case Fetched(records) =>
          messages := LoadRecords(records);
        case FetchFailed =>
      }
      loaded := messages;
      saved := [];
    }

    /** Persist a message; the store itself is outside the model. */
    ghost method SaveMessage(m: Message)
      modifies this`saved
      ensures saved == old(saved) + [m]
    {
      saved := saved + [m];
    }

    /**
     * Send the typed text: nothing happens when it is blank; otherwise the
     * child's message is appended, the field is cleared, the service is asked
     * with the prompt for the child's profile, and Santa's answer (or the
     * apology) is appended.
     */
    method SendMessage(service: string -> ServiceOutcome, userStamp: Stamp, replyStamp: Stamp)
      requires Valid()
      modifies this`messages, this`inputText, this`isLoading, this`saved, this`calls
      ensures Valid() && loaded == old(loaded)
      ensures Trimmed(old(inputText)) == [] ==>
                messages == old(messages) && inputText == old(inputText) && isLoading == old(isLoading) &&
                saved == old(saved) && calls == old(calls)
      ensures Trimmed(old(inputText)) != [] ==>
                var prompt := Prompt(user, old(inputText));
                messages == old(messages) + Exchange(old(inputText), service(prompt), userStamp, replyStamp) &&
                inputText == [] && !isLoading &&
                calls == old(calls) + [ServiceCall(prompt, true)]
    {
      if Trimmed(inputText) == [] {
        return;
      }
      var userMessage := NewMessage(inputText, User, userStamp);
      AppendAndSave(userMessage);

      var userText := inputText;
      inputText := "";
      isLoading := true;

      var prompt := Prompt(user, userText);
      var outcome := service(prompt);
      calls := calls + [ServiceCall(prompt, isLoading)];
      match outcome {
        case Success(santaResponse) =>
          var santaMessage := NewMessage(santaResponse, Santa, replyStamp);
          AppendAndSave(santaMessage);
        case Failure =>
          var errorMessage := NewMessage(FallbackReply, Santa, replyStamp);
          AppendAndSave(errorMessage);
      }
      assert messages == old(messages) + Exchange(userText, outcome, userStamp, replyStamp);

      isLoading := false;
    }

    /** `messages.append(m)` followed by `saveMessage(m)`, as every append in the view model is. */
    method AppendAndSave(m: Message)
      requires Valid()
      modifies this`messages, this`saved
      ensures Valid() && messages == old(messages) + [m]
    {
      messages := messages + [m];
      SaveMessage(m);
    }

    /** Take over the recognised speech as the typed text, unless nothing was recognised. */
    method StopVoiceInput(recognizedText: string)
      modifies this`inputText
      ensures inputText == if recognizedText != [] then recognizedText else old(inputText)
    {
      if recognizedText != [] {
        inputText := recognizedText;
      }
    }
  }
}

=== FILE: messages.dfy ===
/**
 * The chat message model of the iOS app: the two-case sender enumeration with
 * its raw string values, and the immutable message record.
 */
module Messages {
  import opened Options

  /** Who wrote a message. */
  datatype MessageSender = Santa | User

  /** The raw string a sender is stored under. */
  function RawValue(s: MessageSender): (raw: string)
    ensures raw == "santa" || raw == "user"
    ensures (raw == "santa") <==> s == Santa
  {
    match s
    case Santa => "santa"
    case User => "user"
  }

  /** Failable construction from a raw string: only the two raw values parse. */
  function ParseSender(raw: string): (r: Option<MessageSender>)
    ensures r.Some? <==> raw == "santa" || raw == "user"
    ensures r.Some? ==> RawValue(r.value) == raw
  {
    if raw == "santa" then Some(Santa)
    else if raw == "user" then Some(User)
    else None
  }

  /** Parsing the raw value of a sender gives the sender back. */
  lemma ParseRawRoundTrip(s: MessageSender)
    ensures ParseSender(RawValue(s)) == Some(s)
  {
  }

  /** The raw values of the two senders differ, so storing a sender loses nothing. */
  lemma RawValueInjective(s: MessageSender, t: MessageSender)
    ensures RawValue(s) == RawValue(t) <==> s == t
  {
  }

  /** A 128-bit universally unique identifier. */
  newtype Uuid = x: int | 0 <= x < 0x1_0000_0000_0000_0000_0000_0000_0000_0000

  /** A point in time, as a count of clock ticks. */
  type Timestamp = int

  /** A message: every field is fixed once the record is built. */
  datatype Message = Message(id: Uuid, text: string, sender: MessageSender, timestamp: Timestamp)

  /** What `UUID()` and `Date()` would produce at the moment a message is built. */
  datatype Stamp = Stamp(id: Uuid, time: Timestamp)

  /**
   * The memberwise initialiser with its two defaulted parameters: an id or
   * timestamp the caller supplies is stored as given, an omitted one comes
   * from the stamp taken at construction.
   */
  function MakeMessage(text: string, sender: MessageSender, id: Option<Uuid>,
                       timestamp: Option<Timestamp>, stamp: Stamp): (m: Message)
    ensures m.text == text && m.sender == sender
    ensures id.Some? ==> m.id == id.value
    ensures id.None? ==> m.id == stamp.id
    ensures timestamp.Some? ==> m.timestamp == timestamp.value
    ensures timestamp.None? ==> m.timestamp == stamp.time
  {
    Message(if id.Some? then id.value else stamp.id, text, sender,
            if timestamp.Some? then timestamp.value else stamp.time)
  }

  /** A message built with both defaults omitted carries the stamp it was built at. */
  function NewMessage(text: string, sender: MessageSender, stamp: Stamp): (m: Message)
    ensures m == Message(stamp.id, text, sender, stamp.time)
  {
    MakeMessage(text, sender, None, None, stamp)
  }
}

=== FILE: options.dfy ===
/** Option and Result values used across the model in place of Swift's optionals
    and of JavaScript's thrown errors. */
module Options {

  datatype Option<+T> = None | Some(value: T)

  datatype Result<+T, +E> = Ok(value: T) | Err(error: E)
}

=== FILE: relay.dfy ===
/**
 * The HTTP relay of the backend: the health route, the chat route that wraps
 * the child's message in a Santa persona for the completion service, and the
 * speech route that rewrites the text for pacing before asking the
 * text-to-speech service for audio.
 *
 * Each handler is a function from what the route reads (the parsed request
 * body, the environment key, the upstream service) to the response it sends.
 * The upstream services are not modelled; each is a parameter, a function from
 * the request the route builds to the service's answer.
 */
module Relay {
  import opened Options
  import TtsText

  /** A JSON value. Numbers are integers here (see the README). */
  datatype Json =
    | JNull
    | JBool(b: bool)
    | JNumber(n: int)
    | JString(s: string)
    | JArray(items: seq<Json>)
    | JObject(members: seq<Member>)

  datatype Member = Member(key: string, value: Json)

  /** A JavaScript value read out of parsed JSON: `undefined`, or a JSON value. */
  datatype JsValue = Undefined | Defined(json: Json)

  newtype byte = x: int | 0 <= x < 256

  datatype Body = JsonBody(json: Json) | BytesBody(bytes: seq<byte>)

  datatype Response = Response(status: int, contentType: string, body: Body)

  /** The content type `res.json` sets. */
  const JsonContentType := "application/json; charset=utf-8"

  /** The content type of synthesised speech. */
  const AudioContentType := "audio/mpeg"

  // ---------------------------------------------------------------------------
  // Reading properties of parsed JSON
  // ---------------------------------------------------------------------------

  /**
   * The value of the last member named `key`: `JSON.parse` keeps the last of
   * duplicated keys.
   */
  function LastValue(members: seq<Member>, key: string): (v: JsValue)
    ensures v.Defined? <==> exists i :: 0 <= i < |members| && members[i].key == key
    ensures v.Defined? ==> exists i :: 0 <= i < |members| && members[i] == Member(key, v.json) &&
                                       forall j :: i < j < |members| ==> members[j].key != key
  {
    if members == [] then Undefined
    else if members[|members| - 1].key == key then Defined(members[|members| - 1].value)
    else
      var init := members[..|members| - 1];
      assert members == init + [members[|members| - 1]];
      LastValue(init, key)
  }

  /** Reading a key of a two-member object. */
  lemma LastValueOfTwo(a: Member, b: Member, key: string)
    ensures LastValue([a, b], key) ==
              if b.key == key then Defined(b.value) else if a.key == key then Defined(a.value) else Undefined
  {
    assert [a, b][..1] == [a];
    assert [a][..0] == [];
  }

  /** Reading a key of a three-member object. */
  lemma LastValueOfThree(a: Member, b: Member, c: Member, key: string)
    ensures LastValue([a, b, c], key) ==
              if c.key == key then Defined(c.value) else LastValue([a, b], key)
  {
    assert [a, b, c][..2] == [a, b];
  }

  /**
   * A property read `value.key` on parsed JSON (also the destructuring
   * `const { key } = value`): defined only for an object that has the key.
   */
  function Property(value: Json, key: string): (v: JsValue)
    ensures v.Defined? ==> value.JObject?
    ensures value.JObject? ==> v == LastValue(value.members, key)
  {
    if value.JObject? then LastValue(value.members, key) else Undefined
  }

  /**
   * What the JSON body parser can hand a route: it is strict, so a body that
   * is not an object or an array is refused before any route runs, and a
   * request without a JSON body arrives as the empty object.
   */
  predicate ParsedBody(body: Json) {
    body.JObject? || body.JArray?
  }

  /** What a client reading a JSON response finds under `key`. */
  function Field(r: Response, key: string): (v: JsValue)
    ensures v.Defined? ==> r.body.JsonBody?
  {
    if r.body.JsonBody? then Property(r.body.json, key) else Undefined
  }

  /** `res.status(status).json(object)`; `JSON.stringify` drops `undefined` members. */
  function JsonResponse(status: int, members: seq<Member>): (r: Response)
    ensures r.status == status && r.contentType == JsonContentType
    ensures r.body == JsonBody(JObject(members))
  {
    Response(status, JsonContentType, JsonBody(JObject(members)))
  }

  /** An object member whose value may be `undefined`, in which case it is left out. */
  function OptionalMember(key: string, v: JsValue): (ms: seq<Member>)
    ensures v.Undefined? ==> ms == []
    ensures v.Defined? ==> ms == [Member(key, v.json)]
  {
    if v.Defined? then [Member(key, v.json)] else []
  }

  /**
   * The message of the TypeError V8 throws when a property is read from
   * `undefined` or `null`.
   */
  function NullishRead(isNull: bool, property: string): (m: string)
    ensures |m| > |property|
  {
    "Cannot read properties of " + (if isNull then "null" else "undefined") + " (reading '" + property + "')"
  }

  /** The text of a read from `undefined`, spelled out. */
  lemma UndefinedRead(property: string, m: string)
    requires m == "Cannot read properties of undefined (reading '" + property + "')"
    ensures NullishRead(false, property) == m
  {
    assert "Cannot read properties of " + "undefined" + " (reading '" == "Cannot read properties of undefined (reading '";
  }

  /** The text of a read from `null`, spelled out. */
  lemma NullRead(property: string, m: string)
    requires m == "Cannot read properties of null (reading '" + property + "')"
    ensures NullishRead(true, property) == m
  {
    assert "Cannot read properties of " + "null" + " (reading '" == "Cannot read properties of null (reading '";
  }

  // ---------------------------------------------------------------------------
  // GET /api/test
  // ---------------------------------------------------------------------------

  /** The health check always answers 200 with a fixed message. */
  function HandleTest(): (r: Response)
    ensures r.status == 200 && r.contentType == JsonContentType
    ensures Field(r, "message") == Defined(JString("Server is running!"))
  {
    JsonResponse(200, [Member("message", JString("Server is running!"))])
  }

  // ---------------------------------------------------------------------------
  // POST /api/chat
  // ---------------------------------------------------------------------------

  /** The persona the completion service is told to adopt. */
  const SantaSystemPrompt :=
    "You are Santa Claus talking to a child. Keep responses very short (max 2 sentences) and child-friendly. Speak warmly and gently. Do not say 'Ho ho ho' or sign your messages."

  datatype ChatMessage = ChatMessage(role: string, content: JsValue)

  datatype CompletionRequest =
    CompletionRequest(model: string, messages: seq<ChatMessage>, maxTokens: int, temperature: real)

  /**
   * The completion request for a child's message: the persona, then the
   * message exactly as received (no trimming and no validation, so an empty
   * or missing message is forwarded too).
   */
  function ChatRequestFor(message: JsValue): (req: CompletionRequest)
    ensures |req.messages| == 2
    ensures req.messages[0] == ChatMessage("system", Defined(JString(SantaSystemPrompt)))
    ensures req.messages[1].role == "user" && req.messages[1].content == message
    ensures req.model == "gpt-3.5-turbo" && req.maxTokens == 100 && req.temperature == 0.7
  {
    CompletionRequest("gpt-3.5-turbo",
                      [ChatMessage("system", Defined(JString(SantaSystemPrompt))), ChatMessage("user", message)],
                      100, 0.7)
  }

  /** The request the chat route sends for a parsed request body. */
  function ChatRequest(body: Json): (req: CompletionRequest)
    ensures |req.messages| == 2 && req.messages[1].content == Property(body, "message")
  {
    ChatRequestFor(Property(body, "message"))
  }

  /** The child's words as the completion service receives them. */
  function UserContent(messages: seq<ChatMessage>): (v: Option<JsValue>)
    ensures v.Some? <==> exists i :: 0 <= i < |messages| && messages[i].role == "user"
    ensures v.Some? ==> exists i :: 0 <= i < |messages| && messages[i] == ChatMessage("user", v.value) &&
                                    forall j :: i < j < |messages| ==> messages[j].role != "user"
  {
    if messages == [] then None
    else if messages[|messages| - 1].role == "user" then Some(messages[|messages| - 1].content)
    else
      var init := messages[..|messages| - 1];
      assert messages == init + [messages[|messages| - 1]];
      UserContent(init)
  }

  /** The child's message reaches the service unchanged, and distinct messages give distinct requests. */
  lemma ChatRequestForwards(message: JsValue, other: JsValue)
    ensures UserContent(ChatRequestFor(message).messages) == Some(message)
    ensures ChatRequestFor(message) == ChatRequestFor(other) <==> message == other
  {
  }

  /** A property that may be absent or `null` in the service's reply. */
  datatype Slot<+T> = Missing | NullValue | Present(value: T)

  datatype ChoiceMessage = ChoiceMessage(content: JsValue)

  datatype Choice = Choice(message: Slot<ChoiceMessage>)

  /**
   * What the completion call yields: a reply with its `choices`, or a thrown
   * error. An element of `choices` may itself be `null`; a `Missing` element
   * reads as `undefined`, like an index past the end.
   */
  datatype ChatOutcome = Completion(choices: Slot<seq<Slot<Choice>>>) | ChatFailure(errorMessage: string)

  /**
   * `choices[0].message.content`: the content of the first choice, or the
   * TypeError raised by the first read that hits `undefined` or `null`.
   */
  function ExtractReply(choices: Slot<seq<Slot<Choice>>>): (r: Result<JsValue, string>)
    ensures r.Ok? <==> choices.Present? && |choices.value| > 0 && choices.value[0].Present?
                       && choices.value[0].value.message.Present?
    ensures r.Ok? ==> r.value == choices.value[0].value.message.value.content
    ensures !choices.Present? ==> r == Err(NullishRead(choices.NullValue?, "0"))
    ensures choices.Present? && |choices.value| == 0 ==> r == Err(NullishRead(false, "message"))
    ensures choices.Present? && |choices.value| > 0 && !choices.value[0].Present? ==>
              r == Err(NullishRead(choices.value[0].NullValue?, "message"))
    ensures choices.Present? && |choices.value| > 0 && choices.value[0].Present?
            && !choices.value[0].value.message.Present? ==>
              r == Err(NullishRead(choices.value[0].value.message.NullValue?, "content"))
  {
    match choices
    case Missing => Err(NullishRead(false, "0"))
    case NullValue => Err(NullishRead(true, "0"))
    case Present(cs) =>
      if |cs| == 0 then Err(NullishRead(false, "message"))
      else match cs[0]
        case Missing => Err(NullishRead(false, "message"))
        case NullValue => Err(NullishRead(true, "message"))
        case Present(choice) =>
          match choice.message
          case Missing => Err(NullishRead(false, "content"))
          case NullValue => Err(NullishRead(true, "content"))
          case Present(m) => Ok(m.content)
  }

  /** The 500 answer of the chat route. */
  function ChatErrorResponse(details: string): (r: Response)
    ensures r.status == 500
    ensures Field(r, "error") == Defined(JString("Failed to get response"))
    ensures Field(r, "details") == Defined(JString(details))
  {
    var error, detail := Member("error", JString("Failed to get response")), Member("details", JString(details));
    LastValueOfTwo(error, detail, "error");
    LastValueOfTwo(error, detail, "details");
    JsonResponse(500, [error, detail])
  }

  /**
   * POST /api/chat, given the parsed body and the completion service, which
   * is asked exactly once, with `ChatRequest(body)`.
   */
  function HandleChat(body: Json, chat: CompletionRequest -> ChatOutcome): (r: Response)
    requires ParsedBody(body)
    ensures r.contentType == JsonContentType && r.body.JsonBody?
    ensures var outcome := chat(ChatRequest(body));
            r.status == 200 <==> outcome.Completion? && ExtractReply(outcome.choices).Ok?
    ensures r.status == 200 ==> Field(r, "message") == ExtractReply(chat(ChatRequest(body)).choices).value
    ensures r.status == 200 || r.status == 500
  {
    var outcome := chat(ChatRequest(body));
    match outcome
    case ChatFailure(e) => ChatErrorResponse(e)
    case Completion(choices) =>
      match ExtractReply(choices)
      case Ok(content) => JsonResponse(200, OptionalMember("message", content))
      case Err(e) => ChatErrorResponse(e)
  }

  /**
   * The route consults the service only on the request built from the body's
   * `message`: bodies with the same message, and services that agree on that
   * request, give the same answer.
   */
  lemma ChatDependsOnRequest(body: Json, other: Json, chat: CompletionRequest -> ChatOutcome,
                             chat2: CompletionRequest -> ChatOutcome)
    requires ParsedBody(body) && ParsedBody(other)
    requires Property(body, "message") == Property(other, "message")
    requires chat(ChatRequest(body)) == chat2(ChatRequest(body))
    ensures HandleChat(body, chat) == HandleChat(other, chat2)
  {
    assert ChatRequest(body) == ChatRequest(other);
  }

  /** On success the client reads the first choice's content under `message`. */
  lemma ChatSuccess(body: Json, chat: CompletionRequest -> ChatOutcome, choices: seq<Slot<Choice>>, content: JsValue)
    requires ParsedBody(body) && chat(ChatRequest(body)) == Completion(Present(choices))
    requires |choices| > 0 && choices[0] == Present(Choice(Present(ChoiceMessage(content))))
    ensures HandleChat(body, chat).status == 200
    ensures Field(HandleChat(body, chat), "message") == content
  {
  }

  /**
   * Every failure, thrown by the service or by reading its reply, gives 500
   * with the fixed error and the exception's message as details.
   */
  lemma ChatFailureEnvelope(body: Json, chat: CompletionRequest -> ChatOutcome)
    requires ParsedBody(body)
    requires var outcome := chat(ChatRequest(body));
             outcome.ChatFailure? || ExtractReply(outcome.choices).Err?
    ensures HandleChat(body, chat).status == 500
    ensures Field(HandleChat(body, chat), "error") == Defined(JString("Failed to get response"))
    ensures var outcome := chat(ChatRequest(body));
            Field(HandleChat(body, chat), "details") ==
              Defined(JString(if outcome.ChatFailure? then outcome.errorMessage else ExtractReply(outcome.choices).error))
  {
  }

  /** A reply without `choices` fails on the read of element 0. */
  lemma ChatMissingChoices(body: Json, chat: CompletionRequest -> ChatOutcome)
    requires ParsedBody(body) && chat(ChatRequest(body)) == Completion(Missing)
    ensures Field(HandleChat(body, chat), "details") ==
              Defined(JString("Cannot read properties of undefined (reading '0')"))
  {
    UndefinedRead("0", "Cannot read properties of undefined (reading '0')");
  }

  /** A reply whose first choice is `null` fails on the read of `message`. */
  lemma ChatNullChoice(body: Json, chat: CompletionRequest -> ChatOutcome, choices: seq<Slot<Choice>>)
    requires ParsedBody(body) && chat(ChatRequest(body)) == Completion(Present(choices))
    requires |choices| > 0 && choices[0] == NullValue
    ensures HandleChat(body, chat).status == 500
    ensures Field(HandleChat(body, chat), "details") ==
              Defined(JString("Cannot read properties of null (reading 'message')"))
  {
    NullRead("message", "Cannot read properties of null (reading 'message')");
  }

  // ---------------------------------------------------------------------------
  // POST /api/tts
  // ---------------------------------------------------------------------------

  const SantaVoiceId := "knrPHWnBmmDHMoiMeP3l"

  const SpeechEndpoint := "https://api.elevenlabs.io/v1/text-to-speech/" + SantaVoiceId

  const MissingKeyMessage := "ELEVEN_LABS_API_KEY is not set in environment variables"

  datatype VoiceSettings = VoiceSettings(stability: real, similarityBoost: real, style: real, speakingRate: real)

  /** The request sent to the text-to-speech service. */
  datatype SpeechRequest = SpeechRequest(url: string, accept: string, apiKey: string, contentType: string,
                                         text: string, modelId: string, settings: VoiceSettings)

  /** The exception `text.replace(...)` throws when `text` is not a string, if any. */
  function ReplaceFailure(text: JsValue): (e: Option<string>)
    ensures e.None? <==> text.Defined? && text.json.JString?
  {
    match text
    case Undefined => Some(NullishRead(false, "replace"))
    case Defined(JNull) => Some(NullishRead(true, "replace"))
    case Defined(JString(_)) => None
    case Defined(_) => Some("text.replace is not a function")
  }

  /** `!key`: an unset or empty environment variable is missing. */
  function KeyMissing(envKey: Option<string>): (b: bool)
    ensures !b <==> envKey.Some? && |envKey.value| > 0
  {
    envKey.None? || envKey.value == []
  }

  /**
   * Everything the speech route does before calling the service: rewrite the
   * text (which throws when it is not a string), then insist on the API key.
   */
  function PlanSpeech(body: Json, envKey: Option<string>): (r: Result<SpeechRequest, string>)
    ensures ReplaceFailure(Property(body, "text")).Some? ==> r == Err(ReplaceFailure(Property(body, "text")).value)
    ensures ReplaceFailure(Property(body, "text")).None? && KeyMissing(envKey) ==> r == Err(MissingKeyMessage)
    ensures r.Ok? <==> ReplaceFailure(Property(body, "text")).None? && !KeyMissing(envKey)
    ensures r.Ok? ==> r.value.text == TtsText.Preprocess(Property(body, "text").json.s)
    ensures r.Ok? ==> r.value.apiKey == envKey.value && r.value.url == SpeechEndpoint
    ensures r.Ok? ==> r.value.accept == AudioContentType && r.value.contentType == "application/json"
    ensures r.Ok? ==> r.value.modelId == "eleven_monolingual_v1"
    ensures r.Ok? ==> r.value.settings == VoiceSettings(0.80, 0.45, 0.30, 0.75)
  {
    var text := Property(body, "text");
    match ReplaceFailure(text)
    case Some(e) => Err(e)
    case None =>
      var spoken := TtsText.Preprocess(text.json.s);
      if KeyMissing(envKey) then Err(MissingKeyMessage)
      else Ok(SpeechRequest(SpeechEndpoint, AudioContentType, envKey.value, "application/json",
                            spoken, "eleven_monolingual_v1", VoiceSettings(0.80, 0.45, 0.30, 0.75)))
  }

  /** The upstream HTTP response an error carries; `data` already decoded to text. */
  datatype UpstreamResponse = UpstreamResponse(status: int, statusText: string, data: Option<string>)

  /** What the speech call yields: the audio bytes, or a thrown error. */
  datatype SpeechOutcome =
    | Audio(bytes: seq<byte>)
    | SpeechFailure(errorMessage: string, response: Option<UpstreamResponse>)

  /** The `response` member of the error answer. */
  function ResponseSummary(response: Option<UpstreamResponse>): (j: Json)
    ensures j.JObject? <==> response.Some?
    ensures response.None? ==> j == JNull
    ensures response.Some? ==>
              Property(j, "status") == Defined(JNumber(response.value.status)) &&
              Property(j, "statusText") == Defined(JString(response.value.statusText)) &&
              Property(j, "data") == Defined(if response.value.data.Some? then JString(response.value.data.value) else JNull)
  {
    match response
    case None => JNull
    case Some(u) =>
      var status, statusText := Member("status", JNumber(u.status)), Member("statusText", JString(u.statusText));
      var data := Member("data", if u.data.Some? then JString(u.data.value) else JNull);
      LastValueOfThree(status, statusText, data, "status");
      LastValueOfThree(status, statusText, data, "statusText");
      LastValueOfThree(status, statusText, data, "data");
      LastValueOfTwo(status, statusText, "status");
      LastValueOfTwo(status, statusText, "statusText");
      JObject([status, statusText, data])
  }

  /** The 500 answer of the speech route. */
  function TtsErrorResponse(details: string, response: Option<UpstreamResponse>): (r: Response)
    ensures r.status == 500 && r.contentType == JsonContentType
    ensures Field(r, "error") == Defined(JString("Failed to generate speech"))
    ensures Field(r, "details") == Defined(JString(details))
    ensures Field(r, "response") == Defined(ResponseSummary(response))
  {
    var error, detail := Member("error", JString("Failed to generate speech")), Member("details", JString(details));
    var summary := Member("response", ResponseSummary(response));
    LastValueOfThree(error, detail, summary, "error");
    LastValueOfThree(error, detail, summary, "details");
    LastValueOfThree(error, detail, summary, "response");
    LastValueOfTwo(error, detail, "error");
    LastValueOfTwo(error, detail, "details");
    JsonResponse(500, [error, detail, summary])
  }

  /**
   * POST /api/tts, given the parsed body, the environment key and the speech
   * service, which is asked only when planning succeeds, and then with the
   * planned request.
   */
  function HandleTts(body: Json, envKey: Option<string>, speak: SpeechRequest -> SpeechOutcome): (r: Response)
    requires ParsedBody(body)
    ensures r.status == 200 <==> PlanSpeech(body, envKey).Ok? && speak(PlanSpeech(body, envKey).value).Audio?
    ensures r.status == 200 ==>
              r == Response(200, AudioContentType, BytesBody(speak(PlanSpeech(body, envKey).value).bytes))
    ensures r.status != 200 ==> r.status == 500 && r.contentType == JsonContentType
  {
    match PlanSpeech(body, envKey)
    case Err(e) => TtsErrorResponse(e, None)
    case Ok(request) =>
      match speak(request)
      case Audio(bytes) => Response(200, AudioContentType, BytesBody(bytes))
      case SpeechFailure(e, response) => TtsErrorResponse(e, response)
  }

  /**
   * A failure before the service call gives the same answer whatever the
   * service would have said, with a null `response`.
   */
  lemma TtsEarlyFailure(body: Json, envKey: Option<string>, speak: SpeechRequest -> SpeechOutcome,
                        other: SpeechRequest -> SpeechOutcome)
    requires ParsedBody(body) && PlanSpeech(body, envKey).Err?
    ensures HandleTts(body, envKey, speak) == HandleTts(body, envKey, other)
    ensures HandleTts(body, envKey, speak).status == 500
    ensures Field(HandleTts(body, envKey, speak), "error") == Defined(JString("Failed to generate speech"))
    ensures Field(HandleTts(body, envKey, speak), "details") == Defined(JString(PlanSpeech(body, envKey).error))
    ensures Field(HandleTts(body, envKey, speak), "response") == Defined(JNull)
  {
  }

  /** A body without `text` fails on the `replace` call, before the key is looked at. */
  lemma TtsMissingText(body: Json, envKey: Option<string>, speak: SpeechRequest -> SpeechOutcome)
    requires ParsedBody(body) && Property(body, "text").Undefined?
    ensures Field(HandleTts(body, envKey, speak), "details") ==
              Defined(JString("Cannot read properties of undefined (reading 'replace')"))
  {
    UndefinedRead("replace", "Cannot read properties of undefined (reading 'replace')");
  }

  /** A string `text` with an unset or empty key fails with the key message. */
  lemma TtsMissingKey(body: Json, envKey: Option<string>, speak: SpeechRequest -> SpeechOutcome)
    requires ParsedBody(body)
    requires Property(body, "text").Defined? && Property(body, "text").json.JString?
    requires KeyMissing(envKey)
    ensures Field(HandleTts(body, envKey, speak), "details") == Defined(JString(MissingKeyMessage))
    ensures Field(HandleTts(body, envKey, speak), "response") == Defined(JNull)
  {
  }

  /**
   * A service failure after planning gives 500 whose `response` is an object
   * exactly when the error carried an upstream response.
   */
  lemma TtsUpstreamFailure(body: Json, envKey: Option<string>, speak: SpeechRequest -> SpeechOutcome,
                           message: string, response: Option<UpstreamResponse>)
    requires ParsedBody(body) && PlanSpeech(body, envKey).Ok?
    requires speak(PlanSpeech(body, envKey).value) == SpeechFailure(message, response)
    ensures HandleTts(body, envKey, speak).status == 500
    ensures Field(HandleTts(body, envKey, speak), "details") == Defined(JString(message))
    ensures Field(HandleTts(body, envKey, speak), "response").Defined?
    ensures Field(HandleTts(body, envKey, speak), "response").json.JObject? <==> response.Some?
  {
  }

  /** The text "Ho ho ho!" is spoken as "Ho ho ho,, !". */
  lemma TtsSpeaksPaced(body: Json, envKey: Option<string>)
    requires body == JObject([Member("text", JString("Ho ho ho!"))])
    requires !KeyMissing(envKey)
    ensures PlanSpeech(body, envKey).Ok? && PlanSpeech(body, envKey).value.text == "Ho ho ho,, !"
  {
    var text := Property(body, "text").json.s;
    assert text == "Ho ho ho!";
    TtsText.PreprocessExampleShort(text);
  }
}

=== FILE: tts_text.dfy ===
/** The text rewriting the speech endpoint applies before it calls the synthesizer
    (backend/server.js, lines 60-63): four global regular-expression replacements,
    each scanning left to right and never re-examining the text it produced.

      1. /Ho ho ho/gi          -> "Ho ho ho,"
      2. /!/g                  -> ", !"
      3. /\?/g                 -> ", ?"
      4. /(,|\.|!|\?)\s+/g     -> "$1 "
*/
module TtsText {

  // ---------------------------------------------------------------------------
  // Characters
  // ---------------------------------------------------------------------------

  /** JavaScript's `\s`: the WhiteSpace and LineTerminator code points of ECMAScript
      (tab, LF, VT, FF, CR, space, NBSP, OGHAM SPACE MARK, U+2000..U+200A, LS, PS,
      NNBSP, MMSP, IDEOGRAPHIC SPACE and the BOM). */
  function IsJsSpace(c: char): (b: bool)
    ensures c == ' ' || '\t' <= c <= '\r' ==> b
    ensures '!' <= c <= '~' ==> !b
  {
    var n := c as int;
    (0x09 <= n <= 0x0D) || n == 0x20 || n == 0xA0 || n == 0x1680
    || (0x2000 <= n <= 0x200A) || n == 0x2028 || n == 0x2029
    || n == 0x202F || n == 0x205F || n == 0x3000 || n == 0xFEFF
  }

  /** The characters captured by `(,|\.|!|\?)` in step 4. */
  predicate IsMark(c: char) {
    c == ',' || c == '.' || c == '!' || c == '?'
  }

  /** The case folding a non-Unicode `/i` regular expression applies to ASCII letters. */
  function Lower(c: char): (d: char)
    ensures 'A' <= c <= 'Z' ==> d as int == c as int + ('a' as int - 'A' as int)
    ensures !('A' <= c <= 'Z') ==> d == c
  {
    if 'A' <= c <= 'Z' then (c as int + 32) as char else c
  }

  /** Only `h`/`H`, `o`/`O` and the space itself fold to the characters of the
      catchphrase. */
  lemma FoldsToPattern(c: char)
    ensures Lower(c) == 'h' <==> c == 'h' || c == 'H'
    ensures Lower(c) == 'o' <==> c == 'o' || c == 'O'
    ensures Lower(c) == ' ' <==> c == ' '
  {
  }

  /** Number of occurrences of `c` in `s`. */
  function Count(s: string, c: char): nat {
    if s == [] then 0 else (if s[0] == c then 1 else 0) + Count(s[1..], c)
  }

  lemma {:induction false} CountConcat(a: string, b: string, c: char)
    ensures Count(a + b, c) == Count(a, c) + Count(b, c)
  {
    if a == [] {
      assert a + b == b;
    } else {
      assert (a + b)[1..] == a[1..] + b;
      CountConcat(a[1..], b, c);
    }
  }

  // ---------------------------------------------------------------------------
  // Step 1: /Ho ho ho/gi -> "Ho ho ho,"
  // ---------------------------------------------------------------------------

  const HoPattern: string := "ho ho ho"
  const HoReplacement: string := "Ho ho ho,"

  lemma HoReplacementFolds(k: int)
    requires 0 <= k < 8
    ensures Lower(HoReplacement[k]) == HoPattern[k]
  {
    assert k in {0, 1, 2, 3, 4, 5, 6, 7};
  }

  lemma HoPatternHasNoComma(k: int)
    requires 0 <= k < 8
    ensures HoPattern[k] != ','
  {
    assert k in {0, 1, 2, 3, 4, 5, 6, 7};
  }

  /** The pattern matches, ignoring ASCII case, at index `i` of `s`. */
  predicate HoAt(s: string, i: int) {
    0 <= i && i + 8 <= |s| && forall k :: 0 <= k < 8 ==> Lower(s[i + k]) == HoPattern[k]
  }

  /** Step 1: every case-insensitive, non-overlapping, leftmost occurrence of the
      catchphrase is replaced by the literal "Ho ho ho,". */
  function ReplaceHo(s: string): (r: string)
    ensures |s| <= |r|
    decreases |s|
  {
    if s == [] then []
    else if HoAt(s, 0) then HoReplacement + ReplaceHo(s[8..])
    else [s[0]] + ReplaceHo(s[1..])
  }

  /** The first eight characters of the output agree with the input up to case:
      the first comma step 1 inserts lies at index 8 or later. */
  lemma {:induction false} ReplaceHoPrefix(s: string, k: nat)
    requires k < 8 && k < |ReplaceHo(s)|
    ensures k < |s| && Lower(ReplaceHo(s)[k]) == Lower(s[k])
    decreases |s|
  {
    if HoAt(s, 0) {
      assert ReplaceHo(s) == HoReplacement + ReplaceHo(s[8..]);
      assert ReplaceHo(s)[k] == HoReplacement[k];
      HoReplacementFolds(k);
    } else {
      var r := ReplaceHo(s[1..]);
      assert ReplaceHo(s) == [s[0]] + r;
      if k > 0 {
        ReplaceHoPrefix(s[1..], k - 1);
        assert ReplaceHo(s)[k] == r[k - 1];
        assert s[1..][k - 1] == s[k];
      }
    }
  }

  /** Where the input does not start with the catchphrase, neither does the output. */
  lemma ReplaceHoKeepsMismatch(s: string)
    requires s != [] && !HoAt(s, 0)
    ensures !HoAt(ReplaceHo(s), 0)
  {
    var r := ReplaceHo(s);
    if |r| >= 8 {
      ReplaceHoPrefix(s, 7);
      var k :| 0 <= k < 8 && Lower(s[k]) != HoPattern[k];
      ReplaceHoPrefix(s, k);
    }
  }

  /** Every occurrence of the catchphrase, in any casing, is the literal followed by a comma. */
  ghost predicate Normalised(r: string)
  {
    forall i :: HoAt(r, i) ==> i + 9 <= |r| && r[i..i + 9] == HoReplacement
  }

  /** A replacement put in front of normalised text gives normalised text. */
  lemma NormalisedAfterReplacement(t: string)
    requires Normalised(t)
    ensures Normalised(HoReplacement + t)
  {
    var r := HoReplacement + t;
    forall i | 0 < i < 9 ensures !HoAt(r, i) {
      HoPatternHasNoComma(8 - i);
      assert r[8] == ',';
      assert Lower(r[i + (8 - i)]) != HoPattern[8 - i];
    }
    forall i | HoAt(r, i) ensures i + 9 <= |r| && r[i..i + 9] == HoReplacement {
      if i == 0 {
        assert r[..9] == HoReplacement;
      } else {
        assert i >= 9;
        forall k | 0 <= k < 8 ensures Lower(t[i - 9 + k]) == HoPattern[k] {
          assert r[i + k] == t[i - 9 + k];
        }
        assert HoAt(t, i - 9);
        assert r[i..i + 9] == t[i - 9..i];
      }
    }
  }

  /** A character put in front of normalised text, not starting a match, gives normalised text. */
  lemma NormalisedAfterChar(c: char, t: string)
    requires Normalised(t) && !HoAt([c] + t, 0)
    ensures Normalised([c] + t)
  {
    var r := [c] + t;
    forall i | HoAt(r, i) ensures i + 9 <= |r| && r[i..i + 9] == HoReplacement {
      assert i > 0;
      forall k | 0 <= k < 8 ensures Lower(t[i - 1 + k]) == HoPattern[k] {
        assert r[i + k] == t[i - 1 + k];
      }
      assert HoAt(t, i - 1);
      assert r[i..i + 9] == t[i - 1..i + 8];
    }
  }

  /** After step 1 the catchphrase appears, in any casing, only as the literal
      "Ho ho ho" immediately followed by a comma. */
  lemma {:induction false} ReplaceHoNormalises(s: string)
    ensures Normalised(ReplaceHo(s))
    decreases |s|
  {
    if s == [] {
    } else if HoAt(s, 0) {
      ReplaceHoNormalises(s[8..]);
      NormalisedAfterReplacement(ReplaceHo(s[8..]));
    } else {
      ReplaceHoNormalises(s[1..]);
      ReplaceHoKeepsMismatch(s);
      assert ReplaceHo(s) == [s[0]] + ReplaceHo(s[1..]);
      NormalisedAfterChar(s[0], ReplaceHo(s[1..]));
    }
  }

  /** Text in which the catchphrase does not occur passes through step 1 unchanged. */
  lemma {:induction false} ReplaceHoIdentity(s: string)
    requires forall i :: !HoAt(s, i)
    ensures ReplaceHo(s) == s
    decreases |s|
  {
    if s != [] {
      assert !HoAt(s, 0);
      forall i ensures !HoAt(s[1..], i) {
        if HoAt(s[1..], i) {
          forall k | 0 <= k < 8 ensures Lower(s[i + 1 + k]) == HoPattern[k] {
            assert s[1..][i + k] == s[i + 1 + k];
          }
          assert HoAt(s, i + 1);
        }
      }
      ReplaceHoIdentity(s[1..]);
    }
  }

  /** The text with every comma removed and every ASCII letter lower-cased. */
  function Skeleton(s: string): string {
    if s == [] then [] else (if s[0] == ',' then [] else [Lower(s[0])]) + Skeleton(s[1..])
  }

  lemma {:induction false} SkeletonConcat(a: string, b: string)
    ensures Skeleton(a + b) == Skeleton(a) + Skeleton(b)
  {
    if a == [] {
      assert a + b == b;
    } else {
      assert (a + b)[1..] == a[1..] + b;
      SkeletonConcat(a[1..], b);
    }
  }

  lemma {:induction false} SkeletonNoComma(s: string)
    requires forall k :: 0 <= k < |s| ==> s[k] != ','
    ensures |Skeleton(s)| == |s|
    ensures forall k :: 0 <= k < |s| ==> Skeleton(s)[k] == Lower(s[k])
  {
    if s != [] {
      SkeletonNoComma(s[1..]);
    }
  }

  /** A match has the pattern itself as its skeleton. */
  lemma SkeletonOfMatch(s: string)
    requires HoAt(s, 0)
    ensures Skeleton(s[..8]) == HoPattern
  {
    forall k | 0 <= k < 8 ensures s[..8][k] != ',' {
      assert Lower(s[k]) == HoPattern[k];
    }
    SkeletonNoComma(s[..8]);
  }

  /** So has the replacement. */
  lemma SkeletonOfReplacement()
    ensures Skeleton(HoReplacement) == HoPattern
  {
    var capital := HoReplacement[..8];
    forall k | 0 <= k < 8 ensures capital[k] != ',' && Lower(capital[k]) == HoPattern[k] {
      HoReplacementFolds(k);
    }
    SkeletonNoComma(capital);
    assert HoReplacement == capital + [HoReplacement[8]];
    SkeletonConcat(capital, [HoReplacement[8]]);
    assert Skeleton([HoReplacement[8]]) == [];
  }

  /** Step 1 changes nothing but letter case and inserted commas. */
  lemma {:induction false} ReplaceHoSkeleton(s: string)
    ensures Skeleton(ReplaceHo(s)) == Skeleton(s)
    decreases |s|
  {
    if s == [] {
    } else if HoAt(s, 0) {
      ReplaceHoSkeleton(s[8..]);
      assert s == s[..8] + s[8..];
      SkeletonConcat(s[..8], s[8..]);
      SkeletonConcat(HoReplacement, ReplaceHo(s[8..]));
      SkeletonOfMatch(s);
      SkeletonOfReplacement();
    } else {
      ReplaceHoSkeleton(s[1..]);
      SkeletonConcat([s[0]], ReplaceHo(s[1..]));
      assert s == [s[0]] + s[1..];
      SkeletonConcat([s[0]], s[1..]);
    }
  }

  /** Reference inverse of step 1: drops the comma written after each literal "Ho ho ho,". */
  function Unho(t: string): string
    decreases |t|
  {
    if t == [] then []
    else if |t| >= 9 && t[..9] == HoReplacement then HoReplacement[..8] + Unho(t[9..])
    else [t[0]] + Unho(t[1..])
  }

  /** The literal replacement is itself a match of the pattern. */
  lemma {:induction false} LiteralMatches(t: string)
    ensures |t| >= 9 && t[..9] == HoReplacement ==> HoAt(t, 0)
  {
    if |t| >= 9 && t[..9] == HoReplacement {
      forall k | 0 <= k < 8 ensures Lower(t[k]) == HoPattern[k] {
        HoReplacementFolds(k);
        assert t[k] == t[..9][k];
      }
    }
  }

  /** Index `i` of `s` lies inside some case-insensitive occurrence of the catchphrase. */
  predicate InMatch(s: string, i: int) {
    exists j :: i - 7 <= j <= i && HoAt(s, j)
  }

  /** An occurrence in a suffix is an occurrence in the whole text. */
  lemma HoAtShift(s: string, d: nat, j: int)
    requires d <= |s| && HoAt(s[d..], j)
    ensures HoAt(s, j + d)
  {
    forall k | 0 <= k < 8 ensures Lower(s[j + d + k]) == HoPattern[k] {
      assert s[d..][j + k] == s[j + d + k];
    }
  }

  lemma {:induction false} InMatchShift(s: string, d: nat, i: int)
    requires d <= |s|
    ensures InMatch(s[d..], i) ==> InMatch(s, i + d)
  {
    if InMatch(s[d..], i) {
      var j :| i - 7 <= j <= i && HoAt(s[d..], j);
      HoAtShift(s, d, j);
    }
  }

  /** Index `i` of `u` lies in a window of `u` that reads exactly "Ho ho ho" and
      sits over an occurrence of the catchphrase in `s`. */
  predicate Recased(s: string, u: string, i: int) {
    exists j :: i - 7 <= j <= i && HoAt(s, j) && j + 8 <= |u| && u[j..j + 8] == HoReplacement[..8]
  }

  /** A re-cased window of a suffix is a re-cased window of the whole text. */
  lemma {:induction false} RecasedShift(s: string, u: string, d: nat, i: int)
    requires d <= |s| && d <= |u|
    ensures Recased(s[d..], u[d..], i) ==> Recased(s, u, i + d)
  {
    if Recased(s[d..], u[d..], i) {
      var j :| i - 7 <= j <= i && HoAt(s[d..], j) && j + 8 <= |u[d..]| && u[d..][j..j + 8] == HoReplacement[..8];
      HoAtShift(s, d, j);
      assert u[j + d..j + d + 8] == u[d..][j..j + 8];
    }
  }

  /** `u` has the length of `s`, equals it up to case, equals it exactly
      outside the occurrences of the catchphrase, and differs from it only
      inside an occurrence it spells exactly "Ho ho ho". */
  predicate Restores(s: string, u: string) {
    |u| == |s|
    && (forall i :: 0 <= i < |s| ==> Lower(u[i]) == Lower(s[i]))
    && (forall i :: 0 <= i < |s| && !InMatch(s, i) ==> u[i] == s[i])
    && (forall i :: 0 <= i < |s| && u[i] != s[i] ==> Recased(s, u, i))
  }

  /** Removing the comma of a literal replacement at the front. */
  lemma UnhoAfterReplacement(r: string)
    ensures Unho(HoReplacement + r) == HoReplacement[..8] + Unho(r)
  {
    var t := HoReplacement + r;
    assert t[..9] == HoReplacement && t[9..] == r;
  }

  /** The step for an occurrence at the front: it is restored up to case. */
  lemma RestoresAtMatch(s: string, v: string)
    requires HoAt(s, 0) && Restores(s[8..], v)
    ensures Restores(s, HoReplacement[..8] + v)
  {
    var u := HoReplacement[..8] + v;
    forall i | 0 <= i < |s| ensures Lower(u[i]) == Lower(s[i]) {
      if i < 8 {
        HoReplacementFolds(i);
        assert u[i] == HoReplacement[i];
      } else {
        assert u[i] == v[i - 8] && s[i] == s[8..][i - 8];
      }
    }
    forall i | 0 <= i < 8 ensures InMatch(s, i) {
      assert i - 7 <= 0 <= i && HoAt(s, 0);
    }
    forall i | 0 <= i < |s| && !InMatch(s, i) ensures u[i] == s[i] {
      assert i >= 8;
      InMatchShift(s, 8, i - 8);
      assert u[i] == v[i - 8] && s[i] == s[8..][i - 8];
    }
    assert u[0..8] == HoReplacement[..8] && u[8..] == v;
    forall i | 0 <= i < |s| && u[i] != s[i] ensures Recased(s, u, i) {
      if i < 8 {
        assert i - 7 <= 0 <= i && HoAt(s, 0);
      } else {
        assert u[i] == v[i - 8] && s[i] == s[8..][i - 8];
        RecasedShift(s, u, 8, i - 8);
      }
    }
  }

  /** The step for a character that does not start an occurrence: it is kept. */
  lemma RestoresPastChar(s: string, v: string)
    requires s != [] && Restores(s[1..], v)
    ensures Restores(s, [s[0]] + v)
  {
    var u := [s[0]] + v;
    forall i | 0 < i < |s| ensures Lower(u[i]) == Lower(s[i]) {
      assert u[i] == v[i - 1] && s[i] == s[1..][i - 1];
    }
    forall i | 0 < i < |s| && !InMatch(s, i) ensures u[i] == s[i] {
      InMatchShift(s, 1, i - 1);
      assert u[i] == v[i - 1] && s[i] == s[1..][i - 1];
    }
    assert u[1..] == v;
    forall i | 0 < i < |s| && u[i] != s[i] ensures Recased(s, u, i) {
      assert u[i] == v[i - 1] && s[i] == s[1..][i - 1];
      RecasedShift(s, u, 1, i - 1);
    }
  }

  /** The induction behind ReplaceHoRoundTrip, stated with Restores. */
  lemma {:induction false} ReplaceHoRestores(s: string)
    ensures Restores(s, Unho(ReplaceHo(s)))
    decreases |s|
  {
    if s == [] {
    } else if HoAt(s, 0) {
      var r := ReplaceHo(s[8..]);
      ReplaceHoRestores(s[8..]);
      assert ReplaceHo(s) == HoReplacement + r;
      UnhoAfterReplacement(r);
      RestoresAtMatch(s, Unho(r));
    } else {
      var r := ReplaceHo(s[1..]);
      ReplaceHoRestores(s[1..]);
      var t := [s[0]] + r;
      assert ReplaceHo(s) == t;
      ReplaceHoKeepsMismatch(s);
      LiteralMatches(t);
      assert t[1..] == r;
      assert Unho(t) == [s[0]] + Unho(r);
      RestoresPastChar(s, Unho(r));
    }
  }

  /** Step 1 only inserts one comma after each occurrence and re-cases the
      occurrence: removing those commas gives text as long as the input, equal
      to it up to case everywhere, exactly outside the occurrences, and
      different from it only inside an occurrence that now reads "Ho ho ho". */
  lemma ReplaceHoRoundTrip(s: string)
    ensures |Unho(ReplaceHo(s))| == |s|
    ensures forall i :: 0 <= i < |s| ==> Lower(Unho(ReplaceHo(s))[i]) == Lower(s[i])
    ensures forall i :: 0 <= i < |s| && !InMatch(s, i) ==> Unho(ReplaceHo(s))[i] == s[i]
    ensures forall i :: 0 <= i < |s| && Unho(ReplaceHo(s))[i] != s[i] ==>
      exists j :: i - 7 <= j <= i && HoAt(s, j) && Unho(ReplaceHo(s))[j..j + 8] == HoReplacement[..8]
  {
    var u := Unho(ReplaceHo(s));
    ReplaceHoRestores(s);
    forall i | 0 <= i < |s| && u[i] != s[i]
      ensures exists j :: i - 7 <= j <= i && HoAt(s, j) && u[j..j + 8] == HoReplacement[..8]
    {
      assert Recased(s, u, i);
    }
  }

  // ---------------------------------------------------------------------------
  // Steps 2 and 3: /!/g -> ", !" and /\?/g -> ", ?"
  // ---------------------------------------------------------------------------

  /** Replaces every occurrence of `mark` by ", " followed by `mark`. */
  function PauseBefore(s: string, mark: char): (r: string)
    ensures |s| <= |r|
  {
    if s == [] then []
    else (if s[0] == mark then [',', ' ', mark] else [s[0]]) + PauseBefore(s[1..], mark)
  }

  /** Reference inverse of PauseBefore: removes the ", " written before each `mark`. */
  function Unpause(t: string, mark: char): string {
    if t == [] then []
    else if |t| >= 3 && t[0] == ',' && t[1] == ' ' && t[2] == mark then [mark] + Unpause(t[3..], mark)
    else [t[0]] + Unpause(t[1..], mark)
  }

  /** The output of PauseBefore never starts with `mark` itself. */
  lemma PauseBeforeHead(s: string, mark: char)
    requires s != [] && mark != ','
    ensures PauseBefore(s, mark) != [] && PauseBefore(s, mark)[0] != mark
  {
  }

  /** Steps 2 and 3 lose nothing: removing the inserted ", " gives back the input. */
  lemma {:induction false} PauseBeforeRoundTrip(s: string, mark: char)
    requires mark != ','
    ensures Unpause(PauseBefore(s, mark), mark) == s
  {
    if s != [] {
      var t := PauseBefore(s[1..], mark);
      PauseBeforeRoundTrip(s[1..], mark);
      if s[0] == mark {
        assert PauseBefore(s, mark) == [',', ' ', mark] + t;
        assert (([',', ' ', mark] + t)[3..]) == t;
      } else {
        var r := [s[0]] + t;
        assert PauseBefore(s, mark) == r;
        if |r| >= 3 && r[0] == ',' && r[1] == ' ' && r[2] == mark {
          // t begins with a space, so s[1] is a space that is not `mark`,
          // and then t[1] opens the rewriting of s[2..], which is never `mark`.
          assert s[1] != mark;
          assert t == [s[1]] + PauseBefore(s[2..], mark);
          PauseBeforeHead(s[2..], mark);
          assert false;
        }
        assert r[1..] == t;
      }
    }
  }

  /** Every `mark` in the output is immediately preceded by ", ". */
  lemma {:induction false} PauseBeforePrecedes(s: string, mark: char)
    requires mark != ',' && mark != ' '
    ensures forall i :: 0 <= i < |PauseBefore(s, mark)| && PauseBefore(s, mark)[i] == mark ==>
              2 <= i && PauseBefore(s, mark)[i - 2] == ',' && PauseBefore(s, mark)[i - 1] == ' '
  {
    if s != [] {
      var t := PauseBefore(s[1..], mark);
      PauseBeforePrecedes(s[1..], mark);
      var h := if s[0] == mark then [',', ' ', mark] else [s[0]];
      var r := h + t;
      assert PauseBefore(s, mark) == r;
      forall i | 0 <= i < |r| && r[i] == mark ensures 2 <= i && r[i - 2] == ',' && r[i - 1] == ' ' {
        if i >= |h| {
          assert r[i] == t[i - |h|];
          if i - |h| < 2 {
            assert false;
          }
          assert r[i - 2] == t[i - |h| - 2] && r[i - 1] == t[i - |h| - 1];
        }
      }
    }
  }

  /** Steps 2 and 3 keep the number of every character other than ',' and ' ';
      in particular the number of `mark` characters is unchanged. */
  lemma {:induction false} PauseBeforeCount(s: string, mark: char, d: char)
    requires d != ',' && d != ' '
    ensures Count(PauseBefore(s, mark), d) == Count(s, d)
  {
    if s != [] {
      var h := if s[0] == mark then [',', ' ', mark] else [s[0]];
      PauseBeforeCount(s[1..], mark, d);
      CountConcat(h, PauseBefore(s[1..], mark), d);
      if s[0] == mark {
        assert Count(h, d) == Count(h[1..], d);
        assert Count(h[1..], d) == Count(h[1..][1..], d);
        assert h[1..][1..] == [mark] && [mark][1..] == [];
      } else {
        assert h[1..] == [];
      }
      assert Count(h, d) == (if s[0] == d then 1 else 0);
    }
  }

  // ---------------------------------------------------------------------------
  // Step 4: /(,|\.|!|\?)\s+/g -> "$1 "
  // ---------------------------------------------------------------------------

  /** Removes the leading run of whitespace. */
  function DropSpaces(s: string): (r: string)
    ensures |r| <= |s|
    ensures r == [] || !IsJsSpace(r[0])
  {
    if s != [] && IsJsSpace(s[0]) then DropSpaces(s[1..]) else s
  }

  /** What DropSpaces removes is a run of whitespace at the front. */
  lemma {:induction false} DropSpacesSuffix(s: string)
    ensures DropSpaces(s) == s[|s| - |DropSpaces(s)|..]
    ensures forall k :: 0 <= k < |s| - |DropSpaces(s)| ==> IsJsSpace(s[k])
  {
    if s != [] && IsJsSpace(s[0]) {
      DropSpacesSuffix(s[1..]);
      assert s[1..][|s| - 1 - |DropSpaces(s)|..] == s[|s| - |DropSpaces(s)|..];
      forall k | 0 < k < |s| - |DropSpaces(s)| ensures IsJsSpace(s[k]) {
        assert s[1..][k - 1] == s[k];
      }
    }
  }

  /** Step 4: a mark followed by one or more whitespace characters keeps the mark
      and gets exactly one space instead of the run. */
  function Collapse(s: string): (r: string)
    ensures |r| <= |s|
    ensures r == [] <==> s == []
    ensures r != [] ==> r[0] == s[0]
    decreases |s|
  {
    if s == [] then []
    else if IsMark(s[0]) && |s| >= 2 && IsJsSpace(s[1]) then [s[0], ' '] + Collapse(DropSpaces(s[1..]))
    else [s[0]] + Collapse(s[1..])
  }

  /** No mark is followed by whitespace other than one single space. */
  predicate Collapsed(t: string) {
    forall i :: 0 <= i < |t| - 1 && IsMark(t[i]) && IsJsSpace(t[i + 1]) ==>
      t[i + 1] == ' ' && (i + 2 == |t| || !IsJsSpace(t[i + 2]))
  }

  lemma {:induction false} CollapseIsCollapsed(s: string)
    ensures Collapsed(Collapse(s))
    decreases |s|
  {
    if s != [] {
      var r := Collapse(s);
      if IsMark(s[0]) && |s| >= 2 && IsJsSpace(s[1]) {
        var u := DropSpaces(s[1..]);
        var t := Collapse(u);
        CollapseIsCollapsed(u);
        assert r == [s[0], ' '] + t;
        forall i | 0 <= i < |r| - 1 && IsMark(r[i]) && IsJsSpace(r[i + 1])
          ensures r[i + 1] == ' ' && (i + 2 == |r| || !IsJsSpace(r[i + 2]))
        {
          if i >= 2 {
            assert r[i] == t[i - 2] && r[i + 1] == t[i - 1];
            assert i + 2 < |r| ==> r[i + 2] == t[i];
          }
        }
      } else {
        var t := Collapse(s[1..]);
        CollapseIsCollapsed(s[1..]);
        assert r == [s[0]] + t;
        forall i | 0 <= i < |r| - 1 && IsMark(r[i]) && IsJsSpace(r[i + 1])
          ensures r[i + 1] == ' ' && (i + 2 == |r| || !IsJsSpace(r[i + 2]))
        {
          if i >= 1 {
            assert r[i] == t[i - 1] && r[i + 1] == t[i];
            assert i + 2 < |r| ==> r[i + 2] == t[i + 1];
          } else {
            assert false;
          }
        }
      }
    }
  }

  lemma CollapsedSuffix(s: string, j: nat)
    requires Collapsed(s) && j <= |s|
    ensures Collapsed(s[j..])
  {
    var t := s[j..];
    forall i | 0 <= i < |t| - 1 && IsMark(t[i]) && IsJsSpace(t[i + 1])
      ensures t[i + 1] == ' ' && (i + 2 == |t| || !IsJsSpace(t[i + 2]))
    {
      assert t[i] == s[i + j] && t[i + 1] == s[i + j + 1];
      assert i + 2 < |t| ==> t[i + 2] == s[i + j + 2];
    }
  }

  /** Text that already satisfies the rule passes through step 4 unchanged: in
      particular whitespace that does not follow a mark is never touched. */
  lemma {:induction false} CollapseFixesCollapsed(s: string)
    requires Collapsed(s)
    ensures Collapse(s) == s
    decreases |s|
  {
    if s != [] {
      if IsMark(s[0]) && |s| >= 2 && IsJsSpace(s[1]) {
        assert s[1] == ' ' && (|s| == 2 || !IsJsSpace(s[2]));
        assert s[1..][1..] == s[2..];
        assert DropSpaces(s[1..]) == s[2..];
        CollapsedSuffix(s, 2);
        CollapseFixesCollapsed(s[2..]);
        assert s == [s[0], s[1]] + s[2..];
      } else {
        CollapsedSuffix(s, 1);
        CollapseFixesCollapsed(s[1..]);
        assert s == [s[0]] + s[1..];
      }
    }
  }

  /** Step 4 is idempotent. */
  lemma CollapseIdempotent(s: string)
    ensures Collapse(Collapse(s)) == Collapse(s)
  {
    CollapseIsCollapsed(s);
    CollapseFixesCollapsed(Collapse(s));
  }

  /** The text with every whitespace character removed. */
  function NonSpace(s: string): string {
    if s == [] then [] else (if IsJsSpace(s[0]) then [] else [s[0]]) + NonSpace(s[1..])
  }

  lemma {:induction false} NonSpaceConcat(a: string, b: string)
    ensures NonSpace(a + b) == NonSpace(a) + NonSpace(b)
  {
    if a == [] {
      assert a + b == b;
    } else {
      assert (a + b)[1..] == a[1..] + b;
      NonSpaceConcat(a[1..], b);
    }
  }

  lemma {:induction false} NonSpaceDropSpaces(s: string)
    ensures NonSpace(DropSpaces(s)) == NonSpace(s)
  {
    if s != [] && IsJsSpace(s[0]) {
      NonSpaceDropSpaces(s[1..]);
    }
  }

  /** Step 4 only ever changes whitespace: every other character is kept, in order. */
  lemma {:induction false} CollapseKeepsNonSpace(s: string)
    ensures NonSpace(Collapse(s)) == NonSpace(s)
    decreases |s|
  {
    if s != [] {
      if IsMark(s[0]) && |s| >= 2 && IsJsSpace(s[1]) {
        var u := DropSpaces(s[1..]);
        CollapseKeepsNonSpace(u);
        NonSpaceDropSpaces(s[1..]);
        var t := Collapse(u);
        NonSpaceConcat([s[0], ' '], t);
        NonSpaceConcat([s[0]], s[1..]);
        assert [s[0], ' '][1..] == [' '];
        assert NonSpace([' ']) == [];
        assert NonSpace([s[0], ' ']) == NonSpace([s[0]]);
        assert s == [s[0]] + s[1..];
      } else {
        CollapseKeepsNonSpace(s[1..]);
        NonSpaceConcat([s[0]], Collapse(s[1..]));
        NonSpaceConcat([s[0]], s[1..]);
        assert s == [s[0]] + s[1..];
      }
    }
  }

  /** Text before the first mark is copied verbatim, whitespace included. */
  lemma {:induction false} CollapseCopiesUnmarked(w: string, b: string)
    requires forall k :: 0 <= k < |w| ==> !IsMark(w[k])
    ensures Collapse(w + b) == w + Collapse(b)
  {
    if w == [] {
      assert w + b == b;
    } else {
      var s := w + b;
      assert s[0] == w[0] && s[1..] == w[1..] + b;
      CollapseCopiesUnmarked(w[1..], b);
      assert w == [w[0]] + w[1..];
    }
  }

  lemma SpacesAreUnmarked(w: string)
    requires forall k :: 0 <= k < |w| ==> IsJsSpace(w[k])
    ensures forall k :: 0 <= k < |w| ==> !IsMark(w[k])
  {
  }

  /** Whitespace at the front of the text is copied. */
  lemma {:induction false} CollapseLeadingSpaces(w: string, b: string)
    requires forall k :: 0 <= k < |w| ==> IsJsSpace(w[k])
    ensures Collapse(w + b) == w + Collapse(b)
  {
    SpacesAreUnmarked(w);
    CollapseCopiesUnmarked(w, b);
  }

  /** A run of whitespace that follows a character that is neither a mark nor
      whitespace is left as it is, and the text on either side is rewritten
      independently. (A run at the very start is covered by CollapseLeadingSpaces.) */
  lemma {:induction false} CollapseKeepsUnmarkedWhitespace(a: string, w: string, b: string)
    requires a != [] && !IsMark(a[|a| - 1]) && !IsJsSpace(a[|a| - 1])
    requires forall k :: 0 <= k < |w| ==> IsJsSpace(w[k])
    ensures Collapse(a + w + b) == Collapse(a) + w + Collapse(b)
  {
    CollapseLeadingSpaces(w, b);
    CollapseConcat(a, w + b);
    assert a + w + b == a + (w + b);
  }

  /** Dropping a whitespace run in front of text that does not start with whitespace. */
  lemma {:induction false} DropSpacesRun(w: string, b: string)
    requires forall k :: 0 <= k < |w| ==> IsJsSpace(w[k])
    requires b == [] || !IsJsSpace(b[0])
    ensures DropSpaces(w + b) == b
  {
    if w == [] {
      assert w + b == b;
    } else {
      assert (w + b)[0] == w[0] && (w + b)[1..] == w[1..] + b;
      DropSpacesRun(w[1..], b);
    }
  }

  /** A mark followed by a whole run of whitespace keeps the mark and gets one
      plain space instead of the run. */
  lemma {:induction false} CollapseReplacesRun(m: char, w: string, b: string)
    requires IsMark(m) && w != []
    requires forall k :: 0 <= k < |w| ==> IsJsSpace(w[k])
    requires b == [] || !IsJsSpace(b[0])
    ensures Collapse([m] + w + b) == [m, ' '] + Collapse(b)
  {
    var s := [m] + w + b;
    assert s[0] == m && s[1] == w[0] && s[1..] == w + b;
    assert Collapse(s) == [m, ' '] + Collapse(DropSpaces(w + b));
    DropSpacesRun(w, b);
  }

  // ---------------------------------------------------------------------------
  // The whole pipeline
  // ---------------------------------------------------------------------------

  /** The text that is sent to the synthesizer for a request text `text`. */
  function Preprocess(text: string): (r: string)
    ensures Collapsed(r)
  {
    var step1 := ReplaceHo(text);
    var step2 := PauseBefore(step1, '!');
    var step3 := PauseBefore(step2, '?');
    CollapseIsCollapsed(step3);
    Collapse(step3)
  }

  lemma {:induction false} CountSkeleton(s: string, d: char)
    requires d != ',' && !('A' <= d <= 'Z') && !('a' <= d <= 'z')
    ensures Count(Skeleton(s), d) == Count(s, d)
  {
    if s != [] {
      CountSkeleton(s[1..], d);
      var h := if s[0] == ',' then [] else [Lower(s[0])];
      CountConcat(h, Skeleton(s[1..]), d);
    }
  }

  lemma {:induction false} CountNonSpace(s: string, d: char)
    requires !IsJsSpace(d)
    ensures Count(NonSpace(s), d) == Count(s, d)
  {
    if s != [] {
      CountNonSpace(s[1..], d);
      var h := if IsJsSpace(s[0]) then [] else [s[0]];
      CountConcat(h, NonSpace(s[1..]), d);
    }
  }

  /** The whole pipeline keeps the number of '!' and of '?' characters. */
  lemma PreprocessKeepsMarks(text: string, d: char)
    requires d == '!' || d == '?'
    ensures Count(Preprocess(text), d) == Count(text, d)
  {
    var step1 := ReplaceHo(text);
    var step2 := PauseBefore(step1, '!');
    var step3 := PauseBefore(step2, '?');
    ReplaceHoSkeleton(text);
    CountSkeleton(text, d);
    CountSkeleton(step1, d);
    PauseBeforeCount(step1, '!', d);
    PauseBeforeCount(step2, '?', d);
    CollapseKeepsNonSpace(step3);
    CountNonSpace(step3, d);
    CountNonSpace(Collapse(step3), d);
  }

  // ---------------------------------------------------------------------------
  // Evaluating the pipeline on concrete text
  // ---------------------------------------------------------------------------

  /** Text without the letter h (in either case) passes through step 1 unchanged. */
  lemma ReplaceHoWithoutH(s: string)
    requires 'h' !in s && 'H' !in s
    ensures ReplaceHo(s) == s
  {
    forall i ensures !HoAt(s, i) {
      if 0 <= i && i + 8 <= |s| {
        assert s[i] in s;
        assert Lower(s[i + 0]) != HoPattern[0];
      }
    }
    ReplaceHoIdentity(s);
  }

  /** Text that starts with the literal catchphrase. */
  lemma ReplaceHoLeading(rest: string)
    ensures ReplaceHo("Ho ho ho" + rest) == HoReplacement + ReplaceHo(rest)
  {
    var s := "Ho ho ho" + rest;
    forall k | 0 <= k < 8 ensures Lower(s[k]) == HoPattern[k] {
      HoReplacementFolds(k);
      assert s[k] == HoReplacement[k];
    }
    assert HoAt(s, 0);
    assert s[8..] == rest;
  }

  lemma {:induction false} PauseBeforeConcat(a: string, b: string, mark: char)
    ensures PauseBefore(a + b, mark) == PauseBefore(a, mark) + PauseBefore(b, mark)
  {
    if a == [] {
      assert a + b == b;
    } else {
      assert (a + b)[1..] == a[1..] + b;
      PauseBeforeConcat(a[1..], b, mark);
    }
  }

  lemma {:induction false} PauseBeforeAbsent(s: string, mark: char)
    requires mark !in s
    ensures PauseBefore(s, mark) == s
  {
    if s != [] {
      assert s[0] in s;
      assert forall c :: c in s[1..] ==> c in s;
      PauseBeforeAbsent(s[1..], mark);
    }
  }

  lemma {:induction false} DropSpacesConcat(a: string, b: string)
    requires a != [] && !IsJsSpace(a[|a| - 1])
    ensures DropSpaces(a + b) == DropSpaces(a) + b
  {
    if IsJsSpace(a[0]) {
      assert |a| > 1;
      assert (a + b)[1..] == a[1..] + b;
      DropSpacesConcat(a[1..], b);
    }
  }

  /** A boundary that follows a character that is neither a mark nor whitespace
      cannot lie inside a match of step 4, so the rewriting splits there. */
  lemma {:induction false} CollapseConcat(a: string, b: string)
    requires a != [] && !IsMark(a[|a| - 1]) && !IsJsSpace(a[|a| - 1])
    ensures Collapse(a + b) == Collapse(a) + Collapse(b)
    decreases |a|
  {
    var s := a + b;
    assert s[0] == a[0];
    if IsMark(a[0]) && |a| >= 2 && IsJsSpace(a[1]) {
      CollapseConcatAtMatch(a, b);
    } else if |a| == 1 {
      assert s[1..] == b;
      assert Collapse(s) == [s[0]] + Collapse(b);
      assert Collapse(a) == [a[0]];
    } else {
      assert s[1] == a[1];
      assert s[1..] == a[1..] + b;
      CollapseConcat(a[1..], b);
      assert Collapse(s) == [s[0]] + Collapse(a[1..] + b);
      assert Collapse(a) == [a[0]] + Collapse(a[1..]);
    }
  }

  lemma {:induction false} CollapseConcatAtMatch(a: string, b: string)
    requires a != [] && !IsMark(a[|a| - 1]) && !IsJsSpace(a[|a| - 1])
    requires IsMark(a[0]) && |a| >= 2 && IsJsSpace(a[1])
    ensures Collapse(a + b) == Collapse(a) + Collapse(b)
    decreases |a|, 0
  {
    var u := DropSpaces(a[1..]);
    CollapseAtMatchHead(a, b);
    assert Collapse(a) == [a[0], ' '] + Collapse(u);
    assert a[1..][|a[1..]| - 1] == a[|a| - 1];
    DropSpacesKeepsLast(a[1..]);
    CollapseConcat(u, b);
  }

  /** Dropping leading whitespace keeps a last character that is not whitespace. */
  lemma DropSpacesKeepsLast(s: string)
    requires s != [] && !IsJsSpace(s[|s| - 1])
    ensures DropSpaces(s) != [] && DropSpaces(s)[|DropSpaces(s)| - 1] == s[|s| - 1]
  {
    DropSpacesSuffix(s);
    var d := DropSpaces(s);
    assert |s| - |d| <= |s| - 1;
    assert d[|d| - 1] == s[|s| - |d|..][|d| - 1];
  }

  /** Step 4 at a mark followed by whitespace, with more text after the run. */
  lemma CollapseAtMatchHead(a: string, b: string)
    requires a != [] && !IsJsSpace(a[|a| - 1])
    requires IsMark(a[0]) && |a| >= 2 && IsJsSpace(a[1])
    ensures Collapse(a + b) == [a[0], ' '] + Collapse(DropSpaces(a[1..]) + b)
  {
    var s := a + b;
    assert s[0] == a[0] && s[1] == a[1];
    assert s[1..] == a[1..] + b;
    DropSpacesConcat(a[1..], b);
  }

  lemma {:induction false} CollapseWithoutMarks(s: string)
    requires ',' !in s && '.' !in s && '!' !in s && '?' !in s
    ensures Collapse(s) == s
  {
    if s != [] {
      assert s[0] in s;
      assert forall c :: c in s[1..] ==> c in s;
      CollapseWithoutMarks(s[1..]);
    }
  }

  /** A mark that is not followed by whitespace is copied. */
  lemma CollapseMarkAlone(m: char, rest: string)
    requires rest != [] && !IsJsSpace(rest[0])
    ensures Collapse([m] + rest) == [m] + Collapse(rest)
  {
    assert ([m] + rest)[1..] == rest;
  }

  /** A mark followed by a single space followed by non-whitespace is copied. */
  lemma CollapseMarkSpace(m: char, rest: string)
    requires IsMark(m) && (rest == [] || !IsJsSpace(rest[0]))
    ensures Collapse([m, ' '] + rest) == [m, ' '] + Collapse(rest)
  {
    var s := [m, ' '] + rest;
    assert s[1..] == [' '] + rest && s[1..][1..] == rest;
    assert DropSpaces(rest) == rest;
    assert DropSpaces(s[1..]) == rest;
  }

  // Each lemma below names its text through a parameter and does one small
  // step; the composing lemmas then only chain their conclusions. This keeps the
  // verifier from unfolding the rewriting functions along a whole literal.

  lemma NoH(s: string)
    requires s == "!" || s == "! Are you ready?"
    ensures 'h' !in s && 'H' !in s
  {
  }

  /** Text that starts with the catchphrase and has no other h. */
  lemma ReplaceHoOnce(s: string)
    requires |s| >= 8 && s == "Ho ho ho" + s[8..] && 'h' !in s[8..] && 'H' !in s[8..]
    ensures ReplaceHo(s) == HoReplacement + s[8..]
  {
    ReplaceHoLeading(s[8..]);
    ReplaceHoWithoutH(s[8..]);
  }

  lemma SplitHo(s: string)
    requires s == "Ho ho ho!" || s == "Ho ho ho! Are you ready?"
    ensures |s| >= 8 && s == "Ho ho ho" + s[8..]
    ensures s[8..] == "!" || s[8..] == "! Are you ready?"
  {
  }

  lemma JoinShort1(s: string, r: string)
    requires s == "Ho ho ho!" && r == HoReplacement + s[8..]
    ensures r == "Ho ho ho,!"
  {
  }

  lemma JoinLong1(s: string, r: string)
    requires s == "Ho ho ho! Are you ready?" && r == HoReplacement + s[8..]
    ensures r == "Ho ho ho,! Are you ready?"
  {
  }

  lemma ShortStep1(s: string)
    requires s == "Ho ho ho!"
    ensures ReplaceHo(s) == "Ho ho ho,!"
  {
    SplitHo(s);
    NoH(s[8..]);
    ReplaceHoOnce(s);
    JoinShort1(s, ReplaceHo(s));
  }

  lemma SplitShort2(s: string)
    requires s == "Ho ho ho,!"
    ensures s == s[..9] + s[9..] && s[..9] == "Ho ho ho," && s[9..] == "!"
  {
  }

  lemma JoinShort2(a: string, r: string)
    requires a == "Ho ho ho," && r == a + ", !"
    ensures r == "Ho ho ho,, !"
  {
  }

  lemma ShortStep2(s: string)
    requires s == "Ho ho ho,!"
    ensures PauseBefore(s, '!') == "Ho ho ho,, !"
  {
    SplitShort2(s);
    var a, b := s[..9], s[9..];
    PauseBeforeConcat(a, b, '!');
    NoMark(a, '!');
    MarkOnly(b, '!');
    JoinShort2(a, PauseBefore(s, '!'));
  }

  /** Pieces of the examples that contain no `mark` pass through steps 2 and 3. */
  lemma NoMark(s: string, mark: char)
    requires mark == '!' ==> s == "Ho ho ho," || s == " Are you ready?"
    requires mark != '!' ==> mark == '?' && (s == "Ho ho ho,, !" || s == "Ho ho ho,, ! Are you ready")
    ensures PauseBefore(s, mark) == s
  {
    PauseBeforeAbsent(s, mark);
  }

  /** A lone mark gets its pause. */
  lemma MarkOnly(s: string, mark: char)
    requires s == [mark]
    ensures PauseBefore(s, mark) == [',', ' ', mark]
  {
  }

  lemma CollapseLetters(s: string)
    requires s == "Ho ho ho" || s == "Are you ready"
    ensures Collapse(s) == s
  {
    CollapseWithoutMarks(s);
  }

  lemma CollapseMarkBeforeMark(s: string)
    requires s == ",, !" || s == ",, ! "
    ensures Collapse(s[1..]) == s[1..] ==> Collapse(s) == s
  {
    assert s == [s[0]] + s[1..] && s[1] == ',';
    CollapseMarkAlone(s[0], s[1..]);
  }

  lemma CollapseMarkThenSpace(s: string)
    requires |s| >= 2 && IsMark(s[0]) && s[1] == ' ' && (|s| == 2 || !IsJsSpace(s[2]))
    ensures Collapse(s[2..]) == s[2..] ==> Collapse(s) == s
  {
    assert s == [s[0], ' '] + s[2..];
    CollapseMarkSpace(s[0], s[2..]);
  }

  lemma CommaBang(s: string)
    requires s == ",, !"
    ensures Collapse(s) == s
  {
    assert Collapse(s[1..][2..]) == s[1..][2..];
    CollapseMarkThenSpace(s[1..]);
    CollapseMarkBeforeMark(s);
  }

  lemma SplitShort(s: string)
    requires s == "Ho ho ho,, !"
    ensures s[..8] == "Ho ho ho" && s[8..] == ",, !"
  {
  }

  lemma ShortStep4(s: string)
    requires s == "Ho ho ho,, !"
    ensures Collapse(s) == s
  {
    SplitShort(s);
    var a, b := s[..8], s[8..];
    assert s == a + b;
    CollapseLetters(a);
    CommaBang(b);
    CollapseConcat(a, b);
  }

  /** The order of the four steps is observable: the comma step 1 adds and the
      comma step 2 adds end up side by side. */
  lemma PreprocessExampleShort(text: string)
    requires text == "Ho ho ho!"
    ensures Preprocess(text) == "Ho ho ho,, !"
  {
    ShortStep1(text);
    ShortStep2("Ho ho ho,!");
    NoMark("Ho ho ho,, !", '?');
    ShortStep4("Ho ho ho,, !");
  }

  lemma LongStep1(s: string)
    requires s == "Ho ho ho! Are you ready?"
    ensures ReplaceHo(s) == "Ho ho ho,! Are you ready?"
  {
    SplitHo(s);
    NoH(s[8..]);
    ReplaceHoOnce(s);
    JoinLong1(s, ReplaceHo(s));
  }

  lemma SplitLong2(s: string)
    requires s == "Ho ho ho,! Are you ready?"
    ensures s[..10] == "Ho ho ho,!" && s[10..] == " Are you ready?"
  {
  }

  lemma LongStep2(s: string)
    requires s == "Ho ho ho,! Are you ready?"
    ensures PauseBefore(s, '!') == "Ho ho ho,, ! Are you ready?"
  {
    SplitLong2(s);
    var a, b := s[..10], s[10..];
    assert s == a + b;
    PauseBeforeConcat(a, b, '!');
    ShortStep2(a);
    NoMark(b, '!');
    JoinLong2(b, PauseBefore(s, '!'));
  }

  lemma JoinLong2(b: string, r: string)
    requires b == " Are you ready?" && r == "Ho ho ho,, !" + b
    ensures r == "Ho ho ho,, ! Are you ready?"
  {
  }

  lemma SplitLong3(s: string)
    requires s == "Ho ho ho,, ! Are you ready?"
    ensures s == s[..26] + s[26..] && s[..26] == "Ho ho ho,, ! Are you ready" && s[26..] == "?"
  {
  }

  lemma JoinLong3(a: string, r: string)
    requires a == "Ho ho ho,, ! Are you ready" && r == a + ", ?"
    ensures r == "Ho ho ho,, ! Are you ready, ?"
  {
  }

  lemma LongStep3(s: string)
    requires s == "Ho ho ho,, ! Are you ready?"
    ensures PauseBefore(s, '?') == "Ho ho ho,, ! Are you ready, ?"
  {
    SplitLong3(s);
    var a, c := s[..26], s[26..];
    PauseBeforeConcat(a, c, '?');
    NoMark(a, '?');
    MarkOnly(c, '?');
    JoinLong3(a, PauseBefore(s, '?'));
  }

  lemma SplitLong4(s: string)
    requires s == "Ho ho ho,, ! Are you ready, ?"
    ensures s == s[..8] + s[8..] && s[..8] == "Ho ho ho" && s[8..] == ",, ! Are you ready, ?"
  {
  }

  lemma SplitTail4(w: string)
    requires w == ",, ! Are you ready, ?"
    ensures |w| == 21 && w[5..18] == "Are you ready" && w[18..] == ", ?" && w[5..] == w[5..18] + w[18..]
    ensures w[0] == ',' && w[1] == ',' && w[2] == ' ' && w[3] == '!' && w[4] == ' ' && w[5] == 'A'
  {
  }

  /** Step 4 leaves ",, ! " alone when a non-space follows that it also leaves alone. */
  lemma CollapseCommasBang(w: string)
    requires |w| >= 6 && w[0] == ',' && w[1] == ',' && w[2] == ' ' && w[3] == '!' && w[4] == ' '
    requires !IsJsSpace(w[5]) && Collapse(w[5..]) == w[5..]
    ensures Collapse(w) == w
  {
    var u := w[3..];
    assert u[2..] == w[5..];
    CollapseMarkThenSpace(u);
    var v := w[1..];
    assert v[2..] == u;
    CollapseMarkThenSpace(v);
    assert w == [w[0]] + v;
    CollapseMarkAlone(w[0], v);
  }

  lemma CollapseAreYouReady(c: string, d: string)
    requires c == "Are you ready" && d == ", ?"
    ensures Collapse(c + d) == c + d
  {
    CollapseMarkThenSpace(d);
    assert Collapse(d[2..]) == d[2..];
    CollapseLetters(c);
    CollapseConcat(c, d);
  }

  lemma TailStep4(w: string)
    requires w == ",, ! Are you ready, ?"
    ensures Collapse(w) == w
  {
    SplitTail4(w);
    CollapseAreYouReady(w[5..18], w[18..]);
    CollapseCommasBang(w);
  }

  lemma LongStep4(s: string)
    requires s == "Ho ho ho,, ! Are you ready, ?"
    ensures Collapse(s) == s
  {
    SplitLong4(s);
    CollapseLetters(s[..8]);
    TailStep4(s[8..]);
    CollapseConcat(s[..8], s[8..]);
  }

  /** The sentence "Ho ho ho! Are you ready?" rewritten by all four steps. */
  lemma PreprocessExampleLong(text: string)
    requires text == "Ho ho ho! Are you ready?"
    ensures Preprocess(text) == "Ho ho ho,, ! Are you ready, ?"
  {
    LongStep1(text);
    LongStep2("Ho ho ho,! Are you ready?");
    LongStep3("Ho ho ho,, ! Are you ready?");
    LongStep4("Ho ho ho,, ! Are you ready, ?");
  }
}

=== FILE: user.dfy ===
/** The child's profile, as the chat view model holds it. */
module Users {
  import Messages

  /** A profile; the name, age and the three switches can be edited in place. */
  datatype User = User(id: Messages.Uuid, name: string, age: int, parentMode: bool,
                       voiceEnabled: bool, soundEffectsEnabled: bool)

  /**
   * The initialiser with every parameter defaulted, as the view model calls
   * it: no name, age zero, parent mode off, voice and sound effects on.
   */
  function DefaultUser(newId: Messages.Uuid): (u: User)
    ensures u.id == newId && u.name == [] && u.age == 0
    ensures !u.parentMode && u.voiceEnabled && u.soundEffectsEnabled
  {
    User(newId, "", 0, false, true, true)
  }
}
